=== FILE: README.md ===
# race-prophet backend, modelled in Dafny

This project models the backend of race-prophet, a service that predicts race times for Strava runners. The model covers the backend's computational core:

- **Prediction engine.** Riegel's power law `race_time × (goal / race)^exponent`. The exponent is chosen from weekly mileage. The result is scaled by an experience factor and an age factor, widened into an uncertainty band, and repeated at seven standard distances as a table of equivalents. `format_time` renders whole seconds as `h:mm:ss` or `m:ss`.
- **Training processor.**
  - `process_training_data` turns a list of Strava activities into an anonymised training snapshot: totals, means, extremes, and a weekly-mileage dictionary keyed by `%Y-W%W`.
  - `detect_race_results` finds the runs near a goal distance and orders them with two stable sorts.
- **Webhook handler.** `process_activity_event` works through a chain of early exits: consent, token, fetch and run type. It then logs the run and searches the athlete's pending predictions for the first one whose distance tolerance and race-date window admit the run.
- **API server.**
  - The run summary that the activities endpoint builds from fetched activities: run records, weekly mileage, races, recent runs.
  - `find_best_efforts`, which picks the fastest run near each of five target distances.
  - The integer `format_time`.
  - The `/api/predict` endpoint, which duplicates the engine's rules.
- **Store.** `age_to_bucket`, the prediction error stored with a race result, and three operations on the store. The store is a value holding the consent, snapshot and race-result tables. The operations are the consent upsert, the consent lookup and the right-to-deletion delete.

Modules:

| file | module | contents |
|---|---|---|
| common.dfy | `Common` | `Option`/`Result`, Python's errors, Python `round` (half to even), `round(x, n)`, `int()` truncation, filter/map/sum/max/min/mean over sequences and their lemmas |
| text.dfy | `Text` | decimal numerals, two-digit padding, lexicographic string order (Python's `str` comparison), splitting at a separator |
| clock.dfy | `Clock` | `format_time` on whole seconds and its inverse `ParseClock` |
| sorting.dfy | `Sorting` | Python's stable `sorted` as an insertion sort, with order, permutation and stability lemmas; `s[:n]` |
| activities.dfy | `Activities` | the Strava activity record, and the calendar operations the code borrows from `datetime` |
| buckets.dfy | `Buckets` | the `weekly[key] = weekly.get(key, 0) + amount` dictionary in insertion order, its key-sorted listing, and the weekly fold both aggregators run |
| prediction_engine.dfy | `PredictionEngine` | `calculate_prediction` and its tables |
| training_processor.dfy | `TrainingProcessor` | `process_training_data`, `_empty_snapshot`, `detect_race_results` |
| webhook_handler.dfy | `WebhookHandler` | `process_activity_event` as a pure function of its oracles, returning the writes it performs |
| api.dfy | `Api` | the run summary of `get_activities`, `find_best_efforts`, `predict` |
| database.dfy | `Database` | `age_to_bucket`, the prediction error, `get_consent`, `set_consent`, `delete_athlete_data` |

Abstractions:

- **Reals.** Numbers are exact reals, not IEEE doubles.
- **Power and logarithm.** `math.pow` and `math.log` are fields of a `PredictionEngine.Analytic` value. The lemmas that need their laws require `Lawful(an)`:
  - `pow(1, e) = 1`;
  - `log(1) = 0`;
  - powers of positive numbers are positive;
  - `pow(x, e)` grows with `e` for `x ≥ 1`.
- **Dates.**
  - A date is the string `start_date[:10]`. Sorting by date compares these strings, as Python does.
  - `strptime` is the field `Calendar.parseDate`, a string-to-day-number function returning `None` where Python raises `ValueError`.
  - `strftime("%Y-W%W")` is the field `Calendar.weekKey`.
- **Outside calls.** The handler's consent check, token refresh, activity fetch, log call, pending-prediction query and stored-result id arrive as an `Oracles` value. Its writes come back as a trace of `Call`s.
- **Store and time.** A missing connection pool is a store of `None`. `hash_athlete_id` and `datetime.utcnow()` are parameters.
- **Exceptions.** A Python exception the code does not catch is a `Failure`/`Raised` result. The cases are:
  - `ZeroDivisionError` for a zero divisor;
  - `MathDomainError` for `pow` of a negative base or `log` of zero;
  - `DateParseError` for `strptime`.

Behaviour of the code worth knowing when reading the model:

- Weekly buckets use `%Y-W%W`, the Monday-based week of the year. Neither aggregator filters a trailing window.
- The best-effort search covers five targets: 1 Mile, 5K, 10K, Half Marathon and Marathon. A run is a candidate when its rounded distance is within 15% of the target. The search keeps the lowest pace in seconds per km, and on ties the first run in input order.
- The webhook takes the first qualifying prediction in the order of the pending list. Its window runs from one day before the race date to `match_window_days` after it, 3 days by default.
- `detect_race_results` matches on distance only. Its result is ordered newest first, with races before other runs of the same date.

## Model

| member | source | states |
|---|---|---|
| Clock.Split | backend/prediction_engine.py:28-30 | the floor divisions recompose the count, `h*3600 + m*60 + s == t` with `m, s < 60`, and `h > 0` exactly when the count reaches an hour |
| Clock.FormatClockRoundTrip | backend/main.py:262-268 | a non-negative count of seconds renders as text that reads back as that count, in the three-field `h:mm:ss` shape exactly when it is an hour or more and as `m:ss` otherwise |
| Clock.FormatClockNegative | backend/main.py:262-268 | a negative count keeps only its minutes and seconds within the hour, so it reads back as `t mod 3600` rather than itself |
| Clock.FormatClock | backend/main.py:262-268 | the integer `format_time`; its contract is carried by FormatClockRoundTrip and FormatClockNegative: a non-negative count reads back as itself, in `h:mm:ss` exactly from an hour on, and a negative count reads back as `t mod 3600` |
| PredictionEngine.FormatTime | backend/prediction_engine.py:26-33 | the engine's `format_time`; its contract is carried by FormatTimeRoundTrip: a non-negative time renders as its rounded number of seconds |
| PredictionEngine.FormatTimeRoundTrip | backend/prediction_engine.py:26-33 | the engine's `format_time` of a non-negative time reads back as the rounded number of seconds |
| PredictionEngine.Exponent | backend/prediction_engine.py:48-58 | the exponent is one of 1.03, 1.04, 1.05, 1.06, 1.08, and it is 1.06 exactly when mileage is 0 (not given) or in [15, 30) |
| PredictionEngine.ExponentNonIncreasing | backend/prediction_engine.py:50-58 | more positive weekly mileage never raises the exponent |
| PredictionEngine.ExperienceFactor | backend/prediction_engine.py:60 | an unrecognised experience label gives 1.0, and every factor lies in [0.94, 1.06] |
| PredictionEngine.ExperienceTiersOrdered | backend/prediction_engine.py:18-23 | beginner > intermediate > advanced > elite, with intermediate neutral (1.0) |
| PredictionEngine.AgeFactor | backend/prediction_engine.py:62-75 | the age factor is at least 1.0; it is exactly 1.0 for a missing or non-positive age and for ages 20-35, and exactly 1.03 for ages 1-19 |
| PredictionEngine.AgeFactorStep | backend/prediction_engine.py:68-75 | past 35 each year adds the slope of the band it ends in, so the bands meet without a jump at 45, 55 and 65 |
| PredictionEngine.AgeFactorNonDecreasing | backend/prediction_engine.py:64-75 | from age 20 on the age factor never decreases |
| PredictionEngine.SelectFactors | backend/prediction_engine.py:48-75 | the selected experience factor is positive, the age factor at least 1 and the exponent above 1 |
| PredictionEngine.Uncertainty | backend/prediction_engine.py:82-83 | the uncertainty always lies in [0.03, 0.06] |
| PredictionEngine.UncertaintyMonotone | backend/prediction_engine.py:83 | the band widens with the absolute log-ratio of goal to race distance |
| PredictionEngine.UncertaintyAtSameDistance | backend/prediction_engine.py:82-83 | a goal at the race distance has the narrowest band, 0.03 |
| PredictionEngine.EquivalentsOver | backend/prediction_engine.py:88-96 | the table has one row per distance, in order, each computed from that distance under the shared factors |
| PredictionEngine.Equivalents | backend/prediction_engine.py:88-96 | the equivalents table has exactly one row for each of the seven standard distances |
| PredictionEngine.PredictWith | backend/prediction_engine.py:77-109 | for positive distances the reported percentage lies in [3.0, 6.0] and the equivalents cover all seven distances |
| PredictionEngine.CalculatePrediction | backend/prediction_engine.py:36-109 | the prediction succeeds exactly when both distances are positive; a zero race distance raises ZeroDivisionError, any other non-positive distance a math domain error |
| PredictionEngine.PercentInRange | backend/prediction_engine.py:105 | `round(u * 100, 1)` of an uncertainty in [0.03, 0.06] stays within [3.0, 6.0] |
| PredictionEngine.AdjustedAtSameDistance | backend/prediction_engine.py:77-80 | at the race distance the power term is 1, so the adjusted time is the race time times the experience and age factors |
| PredictionEngine.SameDistancePrediction | backend/prediction_engine.py:77-105 | a goal at the race distance predicts the rounded race time scaled by the experience and age factors, with a 3.0% band |
| PredictionEngine.SameDistanceNeutralIsIdentity | backend/prediction_engine.py:77-99 | with neutral experience and a neutral age, a goal at the race distance predicts exactly the race time |
| PredictionEngine.BandBrackets | backend/prediction_engine.py:101-104 | the rounded ends of a band around a non-negative time lie on either side of the rounded time |
| PredictionEngine.BoundsBracketPrediction | backend/prediction_engine.py:99-104 | for a non-negative race time, `low_seconds ≤ predicted_seconds ≤ high_seconds` |
| PredictionEngine.EquivalentsAreGoalPredictions | backend/prediction_engine.py:88-96 | every row of the equivalents table equals the prediction (seconds, rendering and per-mile pace) made with that standard distance as the goal |
| PredictionEngine.MoreMileageNeverSlower | backend/prediction_engine.py:48-80 | for a goal at least as long as the race, more positive weekly mileage never predicts a slower time |
| Common.RoundMonotone | backend/prediction_engine.py:99-104 | Python's `round` never reverses the order of two values |
| TrainingProcessor.EmptySnapshot | backend/training_processor.py:145-162 | the empty snapshot echoes the weeks and has no runs, no heart-rate runs, no average heart rate and an empty progression |
| TrainingProcessor.Contributing | backend/training_processor.py:36-45 | the runs that enter the statistics are exactly the activities of type Run with positive distance and positive moving time |
| TrainingProcessor.ProcessTrainingData | backend/training_processor.py:11-97 | the snapshot echoes `weeks`; `total_runs` counts the contributing runs, and it is 0 exactly when the snapshot is the empty one; `runs_with_heartrate` counts the contributing runs with a truthy heart rate, is at most `total_runs`, and there is an average heart rate exactly when it is positive |
| TrainingProcessor.SnapshotOrderings | backend/training_processor.py:72-91 | peak week ≥ average week, longest run ≥ average run and fastest pace ≤ average pace, each compared as reported, after rounding |
| TrainingProcessor.ProgressionSorted | backend/training_processor.py:76-80 | the progression has one entry per weekly bucket, in ascending week order |
| TrainingProcessor.WeeklyMilesAtMostTotal | backend/training_processor.py:60-66 | runs with an unparseable date count in the total but in no week, so the weeks sum to at most the total miles, and to exactly the total when every date parses |
| TrainingProcessor.Candidates | backend/training_processor.py:113-136 | the matches are exactly the runs of positive distance within the tolerance of the goal, no more of them than activities |
| TrainingProcessor.DetectRaceResults | backend/training_processor.py:100-142 | detection fails, with ZeroDivisionError, exactly when the goal is 0 and some run of positive distance reaches the tolerance test |
| TrainingProcessor.DetectedAreExactlyMatches | backend/training_processor.py:113-142 | for a non-zero goal, the result holds exactly the matches of the runs of positive distance within the tolerance, and is no longer than the input |
| TrainingProcessor.DetectedPermutesCandidates | backend/training_processor.py:113-140 | the two sorts only reorder: each match is returned exactly as often as the unsorted candidate list holds it |
| TrainingProcessor.DetectedOrder | backend/training_processor.py:138-140 | the result is newest first, and among entries of one date the races precede the other runs |
| Buckets.AddTo | backend/training_processor.py:64 | a new key is appended as a bucket at the end; an existing key keeps the number of buckets |
| Buckets.AddToLookup | backend/training_processor.py:64 | after the update the key's looked-up total grew by the amount and every other key's is unchanged |
| Buckets.AddToTotal | backend/training_processor.py:64 | the grand total over all buckets grows by exactly the amount |
| Buckets.AddToKeys | backend/training_processor.py:64 | the set of keys grows by exactly the updated key |
| Buckets.AddToDistinct | backend/training_processor.py:64 | the keys of the dictionary stay distinct |
| Buckets.SortedByKey | backend/training_processor.py:77 | `sorted(weekly.items())` is a permutation of the buckets in ascending key order |
| Buckets.Progression | backend/training_processor.py:77-80 | the progression has one entry per bucket, in ascending week order, and its entries are exactly the buckets' weeks with their totals converted and rounded to one decimal |
| Buckets.Weekly | backend/training_processor.py:60-66 | the weekly dictionary fold; its contract is carried by WeeklyDistinct, WeeklyKeys and WeeklyTotal: no week twice, exactly the weeks of the runs whose date parses, and together exactly those runs' amounts |
| Buckets.WeekOf | backend/training_processor.py:61-63 | a run has a week exactly when its date parses |
| Buckets.WeeklyDistinct | backend/training_processor.py:60-66 | the weekly dictionary never holds a week twice |
| Buckets.WeeklyKeys | backend/training_processor.py:60-66 | the weeks of the dictionary are exactly the weeks of the runs whose date parses |
| Buckets.WeeklyTotal | backend/training_processor.py:60-66 | the weekly buckets together hold exactly the amounts of the runs whose date parses |
| Buckets.WeeklyEmptyIff | backend/main.py:192-194 | with every date parsing there is a week exactly when there is a run |
| Buckets.WeeklyTotalAllParse | backend/main.py:192-194 | with every date parsing the weeks together hold the amounts of all runs |
| Sorting.Sort | backend/training_processor.py:139-140 | a sort returns a permutation of its input |
| Sorting.SortSorted | backend/training_processor.py:139-140 | under a total preorder the sort's output is ordered |
| Sorting.SortKeepsTies | backend/training_processor.py:139-140 | the sort is stable: elements whose keys tie keep any order the input had between them |
| Sorting.Take | backend/main.py:229 | `s[:n]` is the prefix of `s` of length `min(n, |s|)` |
| WebhookHandler.ProcessActivityEvent | backend/webhook_handler.py:63-173 | the handler itself; its contract is carried by EarlyExits, LoggingFirst, NoSearchWithoutDateOrPending, MatchIsFirstQualifying, MatchIffSomeQualifies, AtMostOneMatch and ZeroGoalRaises, stated in their rows |
| WebhookHandler.FirstMatch | backend/webhook_handler.py:121-136 | the search stops at the first prediction that qualifies or that would divide by zero, with none before it doing either, and finds nothing exactly when no prediction does either |
| WebhookHandler.EarlyExits | backend/webhook_handler.py:69-97 | no consent, an unusable token, a failed fetch and a non-run each return "skipped" with their own reason and perform no write, and a reason is given exactly when a gate failed |
| WebhookHandler.LoggingFirst | backend/webhook_handler.py:99-103 | past the gates the log call is the first write; `logged` says whether it returned an id, and without a match the action is "logged" exactly when that id is truthy |
| WebhookHandler.NoSearchWithoutDateOrPending | backend/webhook_handler.py:112-119 | an unparseable date or an empty pending list returns right after the log call, with no store or match call |
| WebhookHandler.MatchIsFirstQualifying | backend/webhook_handler.py:121-171 | a match is the first pending prediction in list order that qualifies; the event then stores one race result carrying the run's own distance and marks that prediction matched, and `error_seconds` is predicted minus actual |
| WebhookHandler.MatchIffSomeQualifies | backend/webhook_handler.py:121-136 | a run of non-positive distance, or one no prediction's tolerance and window admit, is never matched; one that some prediction admits, with none before it dividing by zero, is |
| WebhookHandler.AtMostOneMatch | backend/webhook_handler.py:121-171 | an event writes nothing, only the log entry, or the log entry, one race result and one prediction match, the last exactly when it reports "matched" |
| WebhookHandler.ZeroGoalRaises | backend/webhook_handler.py:121-125 | a pending prediction with a zero goal distance that the loop reaches, with no qualifying prediction before it, escapes as ZeroDivisionError after the log call once the run distance is positive |
| Api.ToRun | backend/main.py:188-211 | `is_race` is exactly `workout_type == 1`; the date is the first ten characters; the time reads back from its rendering; both paces are "N/A" exactly for a non-positive distance and otherwise read back as the truncated seconds per km and per mile |
| Api.SecondsPerKm | backend/main.py:205 | for a positive distance the pace times the distance is the moving time, and the pace is non-negative for a non-negative time |
| Api.PaceText | backend/main.py:204-205 | the pace text is "N/A" exactly for a non-positive distance and otherwise reads back as the truncated pace |
| Api.ClockRendering | backend/main.py:262-268 | a rendered clock always holds a colon, so it is never "N/A", and a non-negative count reads back as itself |
| Api.Runs | backend/main.py:184-211 | there is one run record per activity of type Run, and the records are exactly those of the Run activities, each as often as its activity occurs |
| Api.NearIsPositive | backend/main.py:243-249 | a run within 15% of a target is at least 85% of it, so its pace is defined |
| Api.Fastest | backend/main.py:244-249 | no candidate is found exactly when no run is within 15% of the target; otherwise the one found is a candidate whose pace no candidate beats and no earlier candidate equals |
| Api.FindBestEfforts | backend/main.py:233-259 | a target has an entry exactly when some run is within 15% of it; every entry is made from the first fastest candidate of its target, no target has two entries, and the entries follow the order of the `targets` dictionary (1 Mile, 5K, 10K, Half Marathon, Marathon) |
| Api.NewestFirst | backend/main.py:227-229 | sorting by date descending returns a permutation, newest first |
| Api.AverageWeeklyMiles | backend/main.py:213-214 | with no weekly buckets the average is 0, thanks to the `[0]` fallback |
| Api.AverageIsTotalOverWeeks | backend/main.py:192-214 | when every date parses, the weekly average is the total distance in miles over the number of distinct weeks, rounded to one decimal, and there is a week exactly when there is a run |
| Api.Races | backend/main.py:216-227 | the races are exactly the runs tagged as races, each as often as the input holds it, newest first |
| Api.RecentRuns | backend/main.py:229 | exactly twenty runs when there are more, otherwise all of them; each taken from the input no more often than it occurs there, newest first; no run left out is newer than one kept |
| Api.SummarizeActivities | backend/main.py:181-230 | the summary fails, with a date-parse error, exactly when some run's date does not parse; otherwise it counts the runs, echoes the weeks, and lists the races and recent runs as above. Its average is AverageWeeklyMiles of the weekly kilometres (0 for no runs; the total over the weeks by AverageIsTotalOverWeeks). Its weekly mileage is the Progression of those buckets, in ascending week order. Its best efforts have an entry for exactly the targets some run is near, each the first fastest candidate of its target, no target twice, in the order of the targets |
| Api.Predict | backend/main.py:300-363 | the endpoint succeeds exactly when both distances are positive, with the engine's error otherwise |
| Api.RequestFactorsAgree | backend/main.py:302-329 | the endpoint's copies of the exponent, experience and age rules pick the engine's values, an absent field reading as "not given" |
| Api.PredictIsCalculatePrediction | backend/main.py:300-363 | `predict` returns what `calculate_prediction` returns on the same request, failures included |
| Database.AgeToBucket | backend/database.py:154-171 | no bucket exactly for a missing age or 0; any other age under 18, negatives included, is "under-18"; every age of 18 or more gets one of the six adult buckets |
| Database.AgeToBucketIsBand | backend/database.py:160-171 | each non-zero age lands in the bucket indexed by the number of floors (18, 25, 35, 45, 55, 65) it has reached |
| Database.BucketIndexMonotone | backend/database.py:160-171 | an older age never falls into a younger bucket |
| Database.PredictionErrorOf | backend/database.py:331-335 | the error is computed exactly when both times are non-zero; then predicted = actual + error, and pct × actual = error × 100 |
| Database.PredictionErrorSign | backend/database.py:333-335 | for a positive actual time the percentage has the sign of the error |
| Database.GetConsent | backend/database.py:176-186 | consent reads true exactly when there is a pool and a row for the athlete's hash that says opted in |
| Database.SetConsent | backend/database.py:189-206 | the athlete's row says the new choice with `now` as that choice's timestamp; a new row has no other timestamp and is created at `now` (the `created_at` default of line 53), an existing row keeps its other timestamp and its creation time; the other rows and tables are unchanged; without a pool nothing happens |
| Database.GetAfterSet | backend/database.py:176-206 | reading consent after setting it gives the choice just made |
| Database.SetLeavesOthers | backend/database.py:189-206 | setting one athlete's consent leaves what every other hash reads unchanged |
| Database.SetTwiceIsSetOnce | backend/database.py:196-206 | repeating the same choice equals making it once at the later time, except that the row keeps the creation time of the first write; for an athlete who already had a row the two are equal |
| Database.DeleteAthleteData | backend/database.py:209-228 | no consent, snapshot or race-result row of the athlete's hash remains, and every row of another hash stays |
| Database.DeleteRevokesConsent | backend/database.py:209-228 | after deletion the athlete reads as not opted in |
| Database.DeleteIdempotent | backend/database.py:209-228 | deleting twice is deleting once |

## Left out

- HTTP and OAuth plumbing, Strava paging, `refresh_athlete_token` and `fetch_activity`: network I/O. Their results enter as values, the `Oracles` of the webhook and the activity list of the summary.
- The connection pool, the schema DDL, `store_training_snapshot`, the insert of `store_race_result`, `get_dataset_stats` and `export_training_dataset`. These are storage mechanics and SQL aggregation. Only the prediction-error arithmetic and the consent and delete transitions are modelled.
- `hash_athlete_id`: a salted SHA-256, passed in as an arbitrary function.
- `get_tokens`, `update_tokens`, `get_pending_predictions`, `match_prediction` and `log_activity`: imported by the handler but not defined in the files modelled. They are oracles or recorded calls.
- The `source` keyword the handler passes to `store_race_result`, which the definition in database.py does not accept. The model records the request with that field. It does not model the TypeError such a call would raise.
- Concurrency and exactly-once matching. The handler stores a result before marking the prediction matched, with no conditional write, and the model claims no atomicity.
- Floating point: numbers are exact reals. `math.pow` and `math.log` are uninterpreted apart from the laws in `Lawful`.
- `strptime`, `strftime` and `json.dumps` are abstracted as described above. The progression is kept as the list that would be serialised.
- Referential integrity in `delete_athlete_data`. `race_results.snapshot_id` references `training_snapshots` without a cascade. The model deletes the rows and does not model the foreign-key error that another athlete's result referencing one of these snapshots would raise.
- Missing dictionary keys. `act["distance"]`, `act["moving_time"]`, `act["start_date"]`, `act["id"]` and `act["name"]` raise KeyError in `get_activities`. In the model every activity carries every field, with the `get` defaults used elsewhere.
- Empty or partial values from outside calls. An activity fetched as an empty dictionary is falsy in the handler; the model has only present (`Some`) or absent (`None`). A prediction row whose `match_window_days` or `goal_race_name` is present but null is read as absent: the model uses the default 3 days and the empty name, while Python would raise a TypeError on the window.
- Api.Runs: states the count and the membership of the run records, not that they keep the input order.
- Api.Races: does not state that races of the same date keep their input order.
- TrainingProcessor.ProcessTrainingData: states the counts, the heart-rate presence and, through SnapshotOrderings, ProgressionSorted and WeeklyMilesAtMostTotal, the relations between the statistics. It does not restate the value of each rounded mean, total and elevation figure.
- The clock behind `created_at DEFAULT NOW()`: the model stamps a new consent row with the same instant `now` that `set_consent` takes from `datetime.utcnow()`, rather than with a separate database clock.
- `find_best_efforts` returns a dictionary; the model returns its entries as a sequence in the dictionary's insertion order, which is the order of the `targets` literal.

=== FILE: activities.dfy ===
/**
 The activity record as the Strava API delivers it to the backend, and the
 calendar functions the backend borrows from Python's `datetime`.
 */
module Activities {
  import opened Common

  /**
   One activity. Each field holds what `act.get(field, default)` yields, so a
   missing distance is 0.0, a missing heart rate or workout type is `None`.
   `distance` is in metres, `movingTime` in seconds, `elevationGain` in metres.
   */
  datatype Activity = Activity(
    id: int,
    name: string,
    kind: string,
    distance: real,
    movingTime: int,
    startDate: string,
    elevationGain: real,
    averageHeartrate: Option<real>,
    workoutType: Option<int>)

  /**
   `datetime.strptime(d, "%Y-%m-%d")` as a day number (`None` where it raises
   ValueError) and `strftime("%Y-W%W")` of a day number.
   */
  datatype Calendar = Calendar(parseDate: string -> Option<int>, weekKey: int -> string)

  const FeetPerMetre: real := 3.281

  predicate IsRun(a: Activity) {
    a.kind == "Run"
  }

  /** `workout_type == 1` is Strava's race tag. */
  predicate IsRace(a: Activity) {
    a.workoutType == Some(1)
  }

  /** `start_date[:10]`, the calendar-date part of the ISO timestamp. */
  function DatePrefix(a: Activity): (d: string)
    ensures |d| == if |a.startDate| < 10 then |a.startDate| else 10
    ensures d <= a.startDate
  {
    if |a.startDate| <= 10 then a.startDate else a.startDate[..10]
  }

  function DistanceKm(a: Activity): real {
    a.distance / 1000.0
  }

  /**
   The relative distance test every matcher of the backend uses,
   `abs(dist_km - goal_km) / goal_km <= tolerance`.
   */
  predicate WithinTolerance(distKm: real, goalKm: real, tolerance: real)
    requires goalKm != 0.0
  {
    Abs(distKm - goalKm) / goalKm <= tolerance
  }

  /** A heart rate counts when it is present and truthy, i.e. non-zero. */
  predicate HasHeartrate(a: Activity) {
    a.averageHeartrate.Some? && a.averageHeartrate.value != 0.0
  }
}

=== FILE: api.dfy ===
/**
 The pure parts of the API server: the run summary the activities endpoint
 builds from the fetched activities, the best-effort search over it, and the
 `/api/predict` endpoint, whose factor selection is a copy of the prediction
 engine's and is proved to agree with it.
 */
module Api {
  import opened Common
  import opened Activities
  import opened Buckets
  import opened Text
  import Sorting
  import Clock
  import PredictionEngine

  // ---------------------------------------------------------------------------
  // The run records of get_activities
  // ---------------------------------------------------------------------------

  /** One entry of `runs`; distances rounded to two decimals, paces already rendered. */
  datatype Run = Run(
    id: int,
    name: string,
    date: string,
    distanceKm: real,
    distanceMi: real,
    timeSeconds: int,
    timeFormatted: string,
    pacePerMile: string,
    pacePerKm: string,
    elevationGain: real,
    averageHeartrate: Option<real>,
    workoutType: Option<int>,
    isRace: bool)

  function KmToMiles(km: real): real {
    km / KmPerMile
  }

  /** The run record of one activity of type "Run". */
  function ToRun(a: Activity): (r: Run)
    ensures r.isRace <==> a.workoutType == Some(1)
    ensures r.date == DatePrefix(a) && r.timeSeconds == a.movingTime
    ensures a.movingTime >= 0 ==> Clock.ParseClock(r.timeFormatted) == Some(a.movingTime)
    ensures r.pacePerKm == "N/A" <==> DistanceKm(a) <= 0.0
    ensures r.pacePerMile == "N/A" <==> DistanceKm(a) <= 0.0
    ensures DistanceKm(a) > 0.0 && a.movingTime >= 0 ==>
              && Clock.ParseClock(r.pacePerKm) == Some(Trunc(SecondsPerKm(a)))
              && Clock.ParseClock(r.pacePerMile) == Some(Trunc(SecondsPerMile(a)))
  {
    var km := DistanceKm(a);
    ClockRendering(a.movingTime);
    Run(a.id, a.name, DatePrefix(a), RoundTo(km, 100.0), RoundTo(KmToMiles(km), 100.0),
        a.movingTime, Clock.FormatClock(a.movingTime),
        PaceText(km, SecondsPerMile(a)),
        PaceText(km, SecondsPerKm(a)),
        a.elevationGain, a.averageHeartrate, a.workoutType, IsRace(a))
  }

  /** `time_sec / dist_km`, the pace in seconds per kilometre of a run with a positive distance. */
  function SecondsPerKm(a: Activity): (pace: real)
    ensures DistanceKm(a) > 0.0 ==> pace * DistanceKm(a) == a.movingTime as real
    ensures a.movingTime >= 0 ==> pace >= 0.0
  {
    if DistanceKm(a) > 0.0 then a.movingTime as real / DistanceKm(a) else 0.0
  }

  /** `time_sec / dist_km * 1.60934`, seconds per mile. */
  function SecondsPerMile(a: Activity): (pace: real)
    ensures a.movingTime >= 0 ==> pace >= 0.0
  {
    SecondsPerKm(a) * KmPerMile
  }

  /** `format_time(int(pace)) if dist_km > 0 else "N/A"`. */
  function PaceText(km: real, pace: real): (text: string)
    ensures text == "N/A" <==> km <= 0.0
    ensures km > 0.0 && pace >= 0.0 ==> Clock.ParseClock(text) == Some(Trunc(pace))
  {
    ClockRendering(Trunc(pace));
    if km > 0.0 then Clock.FormatClock(Trunc(pace)) else "N/A"
  }

  /**
   A rendered clock reads back as its count of seconds when that is not
   negative, and it always holds a colon, so it is never the placeholder "N/A".
   */
  lemma ClockRendering(t: int)
    ensures t >= 0 ==> Clock.ParseClock(Clock.FormatClock(t)) == Some(t)
    ensures Clock.FormatClock(t) != "N/A"
  {
    if t >= 0 {
      Clock.FormatClockRoundTrip(t);
    }
    var c := Clock.Split(t);
    var text := Clock.FormatClock(t);
    var colon := if c.h > 0 then |NatToString(c.h)| else |NatToString(c.m)|;
    assert text[colon] == ':';
    assert forall i :: 0 <= i < |"N/A"| ==> "N/A"[i] != ':';
  }

  /** `runs`: the run records of the activities of type "Run", in input order. */
  function Runs(activities: seq<Activity>): (rs: seq<Run>)
    ensures |rs| == |Filter(activities, IsRun)|
    ensures forall r :: r in rs <==> exists a :: a in activities && IsRun(a) && r == ToRun(a)
    ensures multiset(rs) == multiset(Map(Filter(activities, IsRun), ToRun))
  {
    var acts := Filter(activities, IsRun);
    var rs := Map(acts, ToRun);
    MapContains(acts, ToRun);
    rs
  }

  // ---------------------------------------------------------------------------
  // find_best_efforts
  // ---------------------------------------------------------------------------

  datatype Target = Target(name: string, km: real)

  /** The five distances a best effort is searched for, in dictionary order. */
  const Targets: seq<Target> := [
    Target("1 Mile", 1.60934),
    Target("5K", 5.0),
    Target("10K", 10.0),
    Target("Half Marathon", 21.0975),
    Target("Marathon", 42.195)
  ]

  const BestEffortTolerance: real := 0.15

  lemma TargetsWellFormed()
    ensures TargetTable(Targets)
  {
  }

  /**
   A run is a candidate for a target within 15% of its distance (the rounded
   one). Every target distance is positive, so the guard never excludes one.
   */
  predicate Near(r: Run, t: Target) {
    t.km > 0.0 && WithinTolerance(r.distanceKm, t.km, BestEffortTolerance)
  }

  /** Within 15% of a positive target means at least 85% of it, so the pace is defined. */
  lemma NearIsPositive(r: Run, t: Target)
    requires Near(r, t)
    ensures r.distanceKm >= 0.85 * t.km > 0.0
  {
    var d := Abs(r.distanceKm - t.km);
    assert d / t.km <= 0.15;
    assert d <= 0.15 * t.km by {
      var q := d / t.km;
      assert q * t.km == d;
      assert 0.15 * t.km - q * t.km == (0.15 - q) * t.km;
      assert (0.15 - q) * t.km >= 0.0;
    }
  }

  /** The sort key of `min`: seconds per kilometre. */
  function Pace(r: Run): real
    requires r.distanceKm > 0.0
  {
    r.timeSeconds as real / r.distanceKm
  }

  /**
   `k` is what `min(candidates, key=pace)` picks among `runs[..n]`: a candidate
   whose pace no candidate beats, and the first one of that pace, since `min`
   keeps the earliest of equal keys.
   */
  predicate FirstFastestIn(runs: seq<Run>, t: Target, k: int, n: int)
    requires t.km > 0.0 && n <= |runs|
  {
    && 0 <= k < n
    && Near(runs[k], t) && runs[k].distanceKm > 0.0
    && forall j :: 0 <= j < n && Near(runs[j], t) ==>
         && runs[j].distanceKm > 0.0
         && Pace(runs[k]) <= Pace(runs[j])
         && (j < k ==> Pace(runs[k]) < Pace(runs[j]))
  }

  /** The candidates filter followed by `min` with the pace key. */
  method Fastest(runs: seq<Run>, t: Target) returns (k: Option<nat>)
    requires t.km > 0.0
    ensures k.None? <==> forall j :: 0 <= j < |runs| ==> !Near(runs[j], t)
    ensures k.Some? ==> FirstFastestIn(runs, t, k.value, |runs|)
  {
    k := None;
    var i := 0;
    while i < |runs|
      invariant 0 <= i <= |runs|
      invariant k.None? <==> forall j :: 0 <= j < i ==> !Near(runs[j], t)
      invariant k.Some? ==> FirstFastestIn(runs, t, k.value, i)
    {
      if Near(runs[i], t) {
        NearIsPositive(runs[i], t);
        if k.None? || Pace(runs[i]) < Pace(runs[k.value]) {
          k := Some(i);
        }
      }
      i := i + 1;
    }
  }

  datatype BestEffort = BestEffort(
    target: string,
    distanceKm: real,
    actualDistanceKm: real,
    timeSeconds: int,
    timeFormatted: string,
    date: string,
    name: string,
    pacePerMile: string)

  /** `best[label]`: the target's own distance, everything else from the chosen run. */
  function EffortOf(t: Target, r: Run): (e: BestEffort)
    ensures e.target == t.name && e.distanceKm == t.km
    ensures e.actualDistanceKm == r.distanceKm && e.timeSeconds == r.timeSeconds
    ensures e.date == r.date && e.name == r.name
  {
    BestEffort(t.name, t.km, r.distanceKm, r.timeSeconds, r.timeFormatted, r.date, r.name, r.pacePerMile)
  }

  predicate HasTarget(best: seq<BestEffort>, name: string) {
    exists e :: e in best && e.target == name
  }

  /** `e` is the entry `find_best_efforts` makes for target `t`: the first fastest candidate's. */
  ghost predicate Chosen(runs: seq<Run>, t: Target, e: BestEffort) {
    t.km > 0.0 && exists k :: FirstFastestIn(runs, t, k, |runs|) && e == EffortOf(t, runs[k])
  }

  /** Positive distances under distinct names, as the literal `targets` dictionary has. */
  predicate TargetTable(targets: seq<Target>) {
    && (forall i :: 0 <= i < |targets| ==> targets[i].km > 0.0)
    && (forall i, j :: 0 <= i < j < |targets| ==> targets[i].name != targets[j].name)
  }

  /** The position of the first target called `name`, or `|targets|` when there is none. */
  function IndexOf(targets: seq<Target>, name: string): (i: nat)
    ensures i <= |targets|
    ensures i < |targets| ==> targets[i].name == name
    ensures forall j :: 0 <= j < i ==> targets[j].name != name
  {
    if |targets| == 0 then 0
    else if targets[0].name == name then 0
    else 1 + IndexOf(targets[1..], name)
  }

  /** Under distinct names, a target's own name finds it. */
  lemma IndexOfOwnName(targets: seq<Target>, i: int)
    requires TargetTable(targets) && 0 <= i < |targets|
    ensures IndexOf(targets, targets[i].name) == i
  {
  }

  /** The entries so far belong to the first `n` targets, in the targets' order. */
  predicate InTargetOrder(targets: seq<Target>, best: seq<BestEffort>, n: int) {
    && (forall a :: 0 <= a < |best| ==> IndexOf(targets, best[a].target) < n)
    && (forall a, b :: 0 <= a < b < |best| ==> IndexOf(targets, best[a].target) < IndexOf(targets, best[b].target))
  }

  /** Appending the entry of target `i` after entries of earlier targets keeps the order. */
  lemma OrderAdd(targets: seq<Target>, best: seq<BestEffort>, i: int, e: BestEffort)
    requires TargetTable(targets) && 0 <= i < |targets|
    requires InTargetOrder(targets, best, i) && e.target == targets[i].name
    ensures InTargetOrder(targets, best + [e], i + 1)
  {
    IndexOfOwnName(targets, i);
    var next := best + [e];
    forall a, b | 0 <= a < b < |next|
      ensures IndexOf(targets, next[a].target) < IndexOf(targets, next[b].target)
    {
      assert next[a] == best[a];
      if b < |best| {
        assert next[b] == best[b];
      }
    }
  }

  /** The dictionary after the loop has handled the first `n` targets. */
  ghost predicate EffortsUpTo(runs: seq<Run>, targets: seq<Target>, best: seq<BestEffort>, n: int)
    requires 0 <= n <= |targets|
  {
    && |best| <= n
    && (forall a :: 0 <= a < |best| ==>
          exists i :: 0 <= i < n && best[a].target == targets[i].name && Chosen(runs, targets[i], best[a]))
    && (forall i :: 0 <= i < n ==>
          (HasTarget(best, targets[i].name) <==> exists j :: 0 <= j < |runs| && Near(runs[j], targets[i])))
    && (forall a, b :: 0 <= a < b < |best| ==> best[a].target != best[b].target)
  }

  /** Before its turn, a target has no entry: every entry so far belongs to an earlier target. */
  lemma NotYetListed(runs: seq<Run>, targets: seq<Target>, best: seq<BestEffort>, i: int)
    requires TargetTable(targets)
    requires 0 <= i < |targets| && EffortsUpTo(runs, targets, best, i)
    ensures !HasTarget(best, targets[i].name)
  {
    forall x | x in best
      ensures x.target != targets[i].name
    {
      var a :| 0 <= a < |best| && best[a] == x;
    }
  }

  /** A turn that finds no candidate adds nothing, and the target rightly has no entry. */
  lemma EffortsSkip(runs: seq<Run>, targets: seq<Target>, best: seq<BestEffort>, i: int)
    requires TargetTable(targets)
    requires 0 <= i < |targets| && EffortsUpTo(runs, targets, best, i)
    requires forall j :: 0 <= j < |runs| ==> !Near(runs[j], targets[i])
    ensures EffortsUpTo(runs, targets, best, i + 1)
  {
    NotYetListed(runs, targets, best, i);
  }

  /** A turn that finds the first fastest candidate `k` appends its entry. */
  lemma EffortsAdd(runs: seq<Run>, targets: seq<Target>, best: seq<BestEffort>, i: int, k: nat)
    requires TargetTable(targets)
    requires 0 <= i < |targets| && EffortsUpTo(runs, targets, best, i)
    requires FirstFastestIn(runs, targets[i], k, |runs|)
    ensures EffortsUpTo(runs, targets, best + [EffortOf(targets[i], runs[k])], i + 1)
  {
    NotYetListed(runs, targets, best, i);
    var t := targets[i];
    var e := EffortOf(t, runs[k]);
    var next := best + [e];
    assert Chosen(runs, t, e);
    forall a | 0 <= a < |next|
      ensures exists i' :: 0 <= i' < i + 1 && next[a].target == targets[i'].name && Chosen(runs, targets[i'], next[a])
    {
      if a < |best| {
        assert next[a] == best[a];
        var m :| 0 <= m < i && best[a].target == targets[m].name && Chosen(runs, targets[m], best[a]);
      } else {
        assert next[a] == e;
      }
    }
    forall i' | 0 <= i' < i ensures HasTarget(next, targets[i'].name) <==> HasTarget(best, targets[i'].name) {
      if HasTarget(next, targets[i'].name) {
        var x :| x in next && x.target == targets[i'].name;
      }
    }
    assert HasTarget(next, t.name) by {
      assert next[|best|] == e;
    }
    forall a, b | 0 <= a < b < |next| ensures next[a].target != next[b].target {
      if b == |best| {
        assert best[a] in best;
      } else {
        assert next[a] == best[a] && next[b] == best[b];
      }
    }
  }

  /** After the last target the loop's invariant is the contract of `find_best_efforts`. */
  lemma EffortsDone(runs: seq<Run>, targets: seq<Target>, best: seq<BestEffort>)
    requires EffortsUpTo(runs, targets, best, |targets|)
    ensures |best| <= |targets|
    ensures forall i :: 0 <= i < |targets| ==>
              (HasTarget(best, targets[i].name) <==> exists j :: 0 <= j < |runs| && Near(runs[j], targets[i]))
    ensures forall e :: e in best ==> exists t :: t in targets && Chosen(runs, t, e)
    ensures forall a, b :: 0 <= a < b < |best| ==> best[a].target != best[b].target
  {
    forall e | e in best ensures exists t :: t in targets && Chosen(runs, t, e) {
      var a :| 0 <= a < |best| && best[a] == e;
      var m :| 0 <= m < |targets| && best[a].target == targets[m].name && Chosen(runs, targets[m], best[a]);
      assert targets[m] in targets;
    }
  }

  /** The `for label, target_km in targets.items()` loop from target `i` on, over any well-formed table. */
  method EffortsFrom(runs: seq<Run>, targets: seq<Target>, best: seq<BestEffort>, i: nat)
    returns (all: seq<BestEffort>)
    requires TargetTable(targets)
    requires i <= |targets| && EffortsUpTo(runs, targets, best, i)
    requires InTargetOrder(targets, best, i)
    ensures EffortsUpTo(runs, targets, all, |targets|)
    ensures InTargetOrder(targets, all, |targets|)
    decreases |targets| - i
  {
    if i == |targets| {
      return best;
    }
    var k := Fastest(runs, targets[i]);
    if k.Some? {
      EffortsAdd(runs, targets, best, i, k.value);
      OrderAdd(targets, best, i, EffortOf(targets[i], runs[k.value]));
      all := EffortsFrom(runs, targets, best + [EffortOf(targets[i], runs[k.value])], i + 1);
    } else {
      EffortsSkip(runs, targets, best, i);
      all := EffortsFrom(runs, targets, best, i + 1);
    }
  }

  /**
   `find_best_efforts(runs)`, the dictionary as its entries in insertion order:
   a target gets an entry exactly when some run is within 15% of it, the entry
   describes the first fastest such run, and the entries follow the order of
   `targets`.
   */
  method FindBestEfforts(runs: seq<Run>) returns (best: seq<BestEffort>)
    ensures |best| <= |Targets|
    ensures forall i :: 0 <= i < |Targets| ==>
              (HasTarget(best, Targets[i].name) <==> exists j :: 0 <= j < |runs| && Near(runs[j], Targets[i]))
    ensures forall e :: e in best ==> exists t :: t in Targets && Chosen(runs, t, e)
    ensures forall a, b :: 0 <= a < b < |best| ==> best[a].target != best[b].target
    ensures forall a, b :: 0 <= a < b < |best| ==> IndexOf(Targets, best[a].target) < IndexOf(Targets, best[b].target)
  {
    TargetsWellFormed();
    best := EffortsFrom(runs, Targets, [], 0);
    EffortsDone(runs, Targets, best);
  }

  // ---------------------------------------------------------------------------
  // The summary of get_activities
  // ---------------------------------------------------------------------------

  datatype RunSummary = RunSummary(
    totalRuns: nat,
    weeksAnalyzed: int,
    avgWeeklyMiles: real,
    weeklyMileage: seq<WeekEntry>,
    races: seq<Run>,
    bestEfforts: seq<BestEffort>,
    recentRuns: seq<Run>)

  /** `key=lambda r: r["date"], reverse=True`. */
  predicate Later(a: Run, b: Run) {
    StrLe(b.date, a.date)
  }

  lemma LaterIsTotalPreorder()
    ensures Sorting.TotalPreorder(Later)
  {
    forall a: Run, b: Run
      ensures Later(a, b) || Later(b, a)
    {
      StrLeTotal(a.date, b.date);
    }
    forall a: Run, b: Run, c: Run | Later(a, b) && Later(b, c)
      ensures Later(a, c)
    {
      StrLeTransitive(c.date, b.date, a.date);
    }
  }

  /** `sorted(rs, key=date, reverse=True)`: the same runs, newest first. */
  function NewestFirst(rs: seq<Run>): (r: seq<Run>)
    ensures multiset(r) == multiset(rs)
    ensures forall i, j :: 0 <= i < j < |r| ==> StrLe(r[j].date, r[i].date)
  {
    LaterIsTotalPreorder();
    Sorting.SortSorted(rs, Later);
    Sorting.Sort(rs, Later)
  }

  /**
   The mean of `[d / 1.60934 for d in weekly.values()]`, or of `[0]` when the
   dictionary is empty, rounded to one decimal.
   */
  function AverageWeeklyMiles(weekly: seq<Bucket>): (avg: real)
    ensures |weekly| == 0 ==> avg == 0.0
  {
    var miles := if |weekly| > 0 then Map(Totals(weekly), KmToMiles) else [0.0];
    RoundOfInt(0);
    RoundTo(Mean(miles), 10.0)
  }

  predicate IsRaceRun(r: Run) {
    r.isRace
  }

  /** `races`, sorted: the runs tagged as races, each as often as in the input, newest first. */
  function Races(runs: seq<Run>): (rs: seq<Run>)
    ensures multiset(rs) == multiset(Filter(runs, IsRaceRun))
    ensures forall x :: x in rs <==> x in runs && x.isRace
    ensures forall i, j :: 0 <= i < j < |rs| ==> StrLe(rs[j].date, rs[i].date)
  {
    var races := Filter(runs, IsRaceRun);
    var sorted := NewestFirst(races);
    SameMembers(races, sorted);
    sorted
  }

  /**
   `sorted(runs, key=date, reverse=True)[:20]`: exactly twenty runs when there
   are more, all of them otherwise, newest first, and no run left out is newer
   than one kept.
   */
  function RecentRuns(runs: seq<Run>): (rs: seq<Run>)
    ensures |rs| == if |runs| <= 20 then |runs| else 20
    ensures forall x :: x in rs ==> x in runs
    ensures forall i, j :: 0 <= i < j < |rs| ==> StrLe(rs[j].date, rs[i].date)
    ensures multiset(rs) <= multiset(runs)
    ensures |runs| <= 20 ==> multiset(rs) == multiset(runs)
    ensures forall x, y :: x in runs && x !in rs && y in rs ==> StrLe(x.date, y.date)
  {
    var sorted := NewestFirst(runs);
    var recent := Sorting.Take(sorted, 20);
    assert sorted == recent + sorted[|recent|..];
    assert forall k :: 0 <= k < |recent| ==> recent[k] == sorted[k];
    SameMembers(runs, sorted);
    forall x, y | x in runs && x !in recent && y in recent
      ensures StrLe(x.date, y.date)
    {
      var p :| 0 <= p < |sorted| && sorted[p] == x;
      var q :| 0 <= q < |recent| && recent[q] == y;
      assert sorted[q] == y;
    }
    recent
  }

  /**
   The summary part of `get_activities(weeks)` over the fetched activities.
   `strptime` raises on the first run whose date does not parse, so one bad
   date fails the whole request.
   */
  method SummarizeActivities(activities: seq<Activity>, weeks: int, cal: Calendar)
    returns (r: Result<RunSummary, PyError>)
    ensures r.Failure? <==> exists a :: a in activities && IsRun(a) && !DateParses(cal, a)
    ensures r.Failure? ==> r.error == DateParseError
    ensures r.Success? ==> r.value.totalRuns == |Filter(activities, IsRun)| && r.value.weeksAnalyzed == weeks
    ensures r.Success? ==> r.value.races == Races(Runs(activities)) && r.value.recentRuns == RecentRuns(Runs(activities))
    ensures r.Success? ==> r.value.avgWeeklyMiles == AverageWeeklyMiles(Weekly(Filter(activities, IsRun), cal, DistanceKm))
    ensures r.Success? && |Filter(activities, IsRun)| == 0 ==> r.value.avgWeeklyMiles == 0.0
    ensures r.Success? ==> r.value.weeklyMileage == Progression(Weekly(Filter(activities, IsRun), cal, DistanceKm), KmPerMile)
    ensures r.Success? ==> forall i, j :: 0 <= i < j < |r.value.weeklyMileage| ==>
              StrLe(r.value.weeklyMileage[i].week, r.value.weeklyMileage[j].week)
    ensures r.Success? ==> forall i :: 0 <= i < |Targets| ==>
              (HasTarget(r.value.bestEfforts, Targets[i].name) <==>
                 exists j :: 0 <= j < |Runs(activities)| && Near(Runs(activities)[j], Targets[i]))
    ensures r.Success? ==> forall e :: e in r.value.bestEfforts ==>
              exists t :: t in Targets && Chosen(Runs(activities), t, e)
    ensures r.Success? ==> forall a, b :: 0 <= a < b < |r.value.bestEfforts| ==>
              r.value.bestEfforts[a].target != r.value.bestEfforts[b].target
    ensures r.Success? ==> forall a, b :: 0 <= a < b < |r.value.bestEfforts| ==>
              IndexOf(Targets, r.value.bestEfforts[a].target) < IndexOf(Targets, r.value.bestEfforts[b].target)
  {
    var acts := Filter(activities, IsRun);
    if exists a :: a in acts && !DateParses(cal, a) {
      return Failure(DateParseError);
    }
    var runs := Runs(activities);
    var weekly := Weekly(acts, cal, DistanceKm);
    if |acts| == 0 {
      assert weekly == [];
    }
    var best := FindBestEfforts(runs);
    r := Success(RunSummary(|runs|, weeks, AverageWeeklyMiles(weekly), Progression(weekly, KmPerMile),
                            Races(runs), best, RecentRuns(runs)));
  }

  /** Summing the weekly kilometres and then converting equals converting each week first. */
  lemma {:induction false} SumKmToMiles(s: seq<real>)
    ensures Sum(Map(s, KmToMiles)) == Sum(s) / KmPerMile
  {
    if |s| > 0 {
      assert Map(s, KmToMiles) == [KmToMiles(s[0])] + Map(s[1..], KmToMiles);
      SumKmToMiles(s[1..]);
    }
  }

  /**
   When every run's date parses, the weekly average is the total distance of
   all runs in miles divided by the number of distinct weeks that hold a run,
   and there is at least one week exactly when there is a run.
   */
  lemma AverageIsTotalOverWeeks(runs: seq<Activity>, cal: Calendar)
    requires forall a :: a in runs ==> DateParses(cal, a)
    ensures |Weekly(runs, cal, DistanceKm)| == 0 <==> |runs| == 0
    ensures |runs| > 0 ==>
              AverageWeeklyMiles(Weekly(runs, cal, DistanceKm))
              == RoundTo(KmToMiles(Sum(Map(runs, DistanceKm))) / (|Weekly(runs, cal, DistanceKm)| as real), 10.0)
  {
    WeeklyEmptyIff(runs, cal, DistanceKm);
    if |runs| > 0 {
      var weekly := Weekly(runs, cal, DistanceKm);
      var miles := Map(Totals(weekly), KmToMiles);
      WeeklyTotalAllParse(runs, cal, DistanceKm);
      SumKmToMiles(Totals(weekly));
      assert Sum(miles) == KmToMiles(Sum(Map(runs, DistanceKm)));
      assert AverageWeeklyMiles(weekly) == RoundTo(Sum(miles) / (|miles| as real), 10.0);
    }
  }

  // ---------------------------------------------------------------------------
  // /api/predict
  // ---------------------------------------------------------------------------

  /** The request body; an optional field sent as JSON null arrives as `None`. */
  datatype PredictionRequest = PredictionRequest(
    raceTimeSeconds: int,
    raceDistanceKm: real,
    goalDistanceKm: real,
    weeklyMiles: Option<real>,
    age: Option<int>,
    experience: Option<string>)

  /** The exponent ladder of `predict`, on the optional mileage (None is falsy). */
  function RequestExponent(weeklyMiles: Option<real>): real {
    match weeklyMiles
    case None => 1.06
    case Some(m) =>
      if m == 0.0 then 1.06
      else if m >= 60.0 then 1.06 - 0.03
      else if m >= 45.0 then 1.06 - 0.02
      else if m >= 30.0 then 1.06 - 0.01
      else if m < 15.0 then 1.06 + 0.02
      else 1.06
  }

  /** `EXPERIENCE_FACTORS.get(req.experience, 1.0)`; None is no key of the table. */
  function RequestExperienceFactor(experience: Option<string>): real {
    match experience
    case Some(level) => if level in PredictionEngine.ExperienceFactors then PredictionEngine.ExperienceFactors[level] else 1.0
    case None => 1.0
  }

  /** The age ladder of `predict`, on the optional age. */
  function RequestAgeFactor(age: Option<int>): real {
    match age
    case None => 1.0
    case Some(a) =>
      if a <= 0 then 1.0
      else if a < 20 then 1.03
      else if a <= 35 then 1.0
      else if a <= 45 then 1.0 + (a - 35) as real * 0.004
      else if a <= 55 then 1.04 + (a - 45) as real * 0.006
      else if a <= 65 then 1.10 + (a - 55) as real * 0.008
      else 1.18 + (a - 65) as real * 0.01
  }

  /**
   `predict(req)`. After choosing its factors it computes exactly what the
   engine computes, so the formula part is the engine's `PredictWith`.
   */
  function Predict(req: PredictionRequest, an: PredictionEngine.Analytic)
    : (r: Result<PredictionEngine.Prediction, PyError>)
    ensures r.Success? <==> req.raceDistanceKm > 0.0 && req.goalDistanceKm > 0.0
    ensures req.raceDistanceKm == 0.0 ==> r == Failure(ZeroDivisionError)
    ensures r.Failure? && req.raceDistanceKm != 0.0 ==> r.error == MathDomainError
  {
    if req.raceDistanceKm == 0.0 then Failure(ZeroDivisionError)
    else if !(req.raceDistanceKm > 0.0 && req.goalDistanceKm > 0.0) then Failure(MathDomainError)
    else
      var f := PredictionEngine.Factors(RequestExponent(req.weeklyMiles), RequestExperienceFactor(req.experience),
                                        RequestAgeFactor(req.age));
      Success(PredictionEngine.PredictWith(req.raceTimeSeconds, req.raceDistanceKm, req.goalDistanceKm, f, an))
  }

  /**
   The endpoint's copy of the selection rules picks the engine's exponent,
   experience factor and age factor, reading an absent value as the engine's
   "not given" (zero mileage, age 0, an unknown label).
   */
  lemma RequestFactorsAgree(req: PredictionRequest)
    ensures RequestExponent(req.weeklyMiles) == PredictionEngine.Exponent(req.weeklyMiles.GetOr(0.0))
    ensures RequestExperienceFactor(req.experience) == PredictionEngine.ExperienceFactor(req.experience.GetOr(""))
    ensures RequestAgeFactor(req.age) == PredictionEngine.AgeFactor(req.age.GetOr(0))
  {
  }

  /** `predict` and `calculate_prediction` agree on every request, failures included. */
  lemma PredictIsCalculatePrediction(req: PredictionRequest, an: PredictionEngine.Analytic)
    ensures Predict(req, an)
            == PredictionEngine.CalculatePrediction(req.raceTimeSeconds, req.raceDistanceKm, req.goalDistanceKm,
                                                   req.weeklyMiles.GetOr(0.0), req.age.GetOr(0),
                                                   req.experience.GetOr(""), an)
  {
    RequestFactorsAgree(req);
    if req.raceDistanceKm > 0.0 && req.goalDistanceKm > 0.0 {
      PredictionEngine.CalculateIsPredictWith(req.raceTimeSeconds, req.raceDistanceKm, req.goalDistanceKm,
                                              req.weeklyMiles.GetOr(0.0), req.age.GetOr(0),
                                              req.experience.GetOr(""), an);
    }
  }
}

=== FILE: buckets.dfy ===
/**
 The weekly-distance dictionary both aggregators build,
 `weekly[key] = weekly.get(key, 0) + amount`, as an association list in
 Python's insertion order, and its key-sorted listing `sorted(weekly.items())`.
 */
module Buckets {
  import opened Common
  import opened Text
  import opened Activities
  import Sorting

  datatype Bucket = Bucket(key: string, total: real)

  function Keys(bs: seq<Bucket>): set<string> {
    set b | b in bs :: b.key
  }

  predicate DistinctKeys(bs: seq<Bucket>) {
    forall i, j :: 0 <= i < j < |bs| ==> bs[i].key != bs[j].key
  }

  function Totals(bs: seq<Bucket>): (r: seq<real>)
    ensures |r| == |bs|
  {
    Map(bs, (b: Bucket) => b.total)
  }

  lemma KeysCons(b: Bucket, bs: seq<Bucket>)
    ensures Keys([b] + bs) == {b.key} + Keys(bs)
  {
    assert forall c :: c in [b] + bs <==> c == b || c in bs;
  }

  /** `weekly.get(key, 0)`: the total of the first bucket for `key`, or 0. */
  function Lookup(bs: seq<Bucket>, key: string): real {
    if |bs| == 0 then 0.0
    else if bs[0].key == key then bs[0].total
    else Lookup(bs[1..], key)
  }

  /**
   `weekly[key] = weekly.get(key, 0) + amount`: updates the bucket for `key` in
   place, or appends a new bucket at the end when the key is new.
   */
  function AddTo(bs: seq<Bucket>, key: string, amount: real): (r: seq<Bucket>)
    ensures key !in Keys(bs) ==> r == bs + [Bucket(key, amount)]
    ensures key in Keys(bs) ==> |r| == |bs|
  {
    if |bs| == 0 then [Bucket(key, amount)]
    else if bs[0].key == key then [Bucket(key, bs[0].total + amount)] + bs[1..]
    else
      assert Keys(bs) == {bs[0].key} + Keys(bs[1..]) by {
        assert forall b :: b in bs <==> b == bs[0] || b in bs[1..];
      }
      [bs[0]] + AddTo(bs[1..], key, amount)
  }

  /** Dictionary semantics: only the looked-up value of `key` changes, by `amount`. */
  lemma {:induction false} AddToLookup(bs: seq<Bucket>, key: string, amount: real, k: string)
    ensures Lookup(AddTo(bs, key, amount), k) == Lookup(bs, k) + (if k == key then amount else 0.0)
  {
    if |bs| > 0 && bs[0].key != key && bs[0].key != k {
      AddToLookup(bs[1..], key, amount, k);
    }
  }

  /** The grand total over all buckets grows by exactly `amount`. */
  lemma {:induction false} AddToTotal(bs: seq<Bucket>, key: string, amount: real)
    ensures Sum(Totals(AddTo(bs, key, amount))) == Sum(Totals(bs)) + amount
  {
    var r := AddTo(bs, key, amount);
    if |bs| == 0 {
      assert Totals(r) == [amount];
    } else if bs[0].key == key {
      assert Totals(r) == [bs[0].total + amount] + Totals(bs[1..]);
      assert Totals(bs) == [bs[0].total] + Totals(bs[1..]);
    } else {
      AddToTotal(bs[1..], key, amount);
      assert Totals(r) == [bs[0].total] + Totals(AddTo(bs[1..], key, amount));
      assert Totals(bs) == [bs[0].total] + Totals(bs[1..]);
    }
  }

  /** The key set grows by exactly `key`. */
  lemma {:induction false} AddToKeys(bs: seq<Bucket>, key: string, amount: real)
    ensures Keys(AddTo(bs, key, amount)) == Keys(bs) + {key}
  {
    var r := AddTo(bs, key, amount);
    if |bs| > 0 {
      assert bs == [bs[0]] + bs[1..];
      KeysCons(bs[0], bs[1..]);
      if bs[0].key == key {
        KeysCons(r[0], bs[1..]);
      } else {
        AddToKeys(bs[1..], key, amount);
        KeysCons(bs[0], AddTo(bs[1..], key, amount));
      }
    }
  }

  /** A bucket whose key the rest lacks can go in front of distinct buckets. */
  lemma ConsDistinct(b: Bucket, bs: seq<Bucket>)
    requires DistinctKeys(bs) && b.key !in Keys(bs)
    ensures DistinctKeys([b] + bs)
  {
    var r := [b] + bs;
    forall i, j | 0 <= i < j < |r|
      ensures r[i].key != r[j].key
    {
      assert r[j] == bs[j - 1];
      if i == 0 {
        assert bs[j - 1] in bs;
      } else {
        assert r[i] == bs[i - 1];
      }
    }
  }

  /** Keys stay distinct: a key already present is never appended again. */
  lemma {:induction false} AddToDistinct(bs: seq<Bucket>, key: string, amount: real)
    requires DistinctKeys(bs)
    ensures DistinctKeys(AddTo(bs, key, amount))
  {
    if |bs| > 0 {
      var rest := bs[1..];
      assert DistinctKeys(rest) by {
        assert forall i :: 0 <= i < |rest| ==> rest[i] == bs[i + 1];
      }
      KeysCons(bs[0], rest);
      assert bs == [bs[0]] + rest;
      assert bs[0].key !in Keys(rest) by {
        forall c | c in rest ensures c.key != bs[0].key {
          var i :| 0 <= i < |rest| && rest[i] == c;
          assert bs[i + 1] == c;
        }
      }
      if bs[0].key == key {
        ConsDistinct(Bucket(key, bs[0].total + amount), rest);
      } else {
        AddToDistinct(rest, key, amount);
        AddToKeys(rest, key, amount);
        ConsDistinct(bs[0], AddTo(rest, key, amount));
      }
    }
  }

  predicate KeyLe(a: Bucket, b: Bucket) {
    StrLe(a.key, b.key)
  }

  lemma KeyLeIsTotalPreorder()
    ensures Sorting.TotalPreorder(KeyLe)
  {
    forall a: Bucket, b: Bucket
      ensures KeyLe(a, b) || KeyLe(b, a)
    {
      StrLeTotal(a.key, b.key);
    }
    forall a: Bucket, b: Bucket, c: Bucket | KeyLe(a, b) && KeyLe(b, c)
      ensures KeyLe(a, c)
    {
      StrLeTransitive(a.key, b.key, c.key);
    }
  }

  /** `sorted(weekly.items())`: the same buckets in ascending key order. */
  function SortedByKey(bs: seq<Bucket>): (r: seq<Bucket>)
    ensures multiset(r) == multiset(bs)
    ensures Sorting.SortedBy(r, KeyLe)
  {
    KeyLeIsTotalPreorder();
    Sorting.SortSorted(bs, KeyLe);
    Sorting.Sort(bs, KeyLe)
  }

  /** One entry of a weekly-mileage progression: `{"week": w, "miles": round(m, 1)}`. */
  datatype WeekEntry = WeekEntry(week: string, miles: real)

  /**
   The progression listing: the buckets in ascending week order, each total
   converted by `perUnit` and rounded to one decimal.
   */
  function Progression(bs: seq<Bucket>, perUnit: real): (r: seq<WeekEntry>)
    requires perUnit > 0.0
    ensures |r| == |bs|
    ensures forall i, j :: 0 <= i < j < |r| ==> StrLe(r[i].week, r[j].week)
    ensures forall e :: e in r <==> exists b :: b in bs && e == WeekEntry(b.key, RoundTo(b.total / perUnit, 10.0))
  {
    var sorted := SortedByKey(bs);
    var entry := (b: Bucket) requires perUnit > 0.0 => WeekEntry(b.key, RoundTo(b.total / perUnit, 10.0));
    SameMembers(bs, sorted);
    MapContains(sorted, entry);
    Map(sorted, entry)
  }

  // ---------------------------------------------------------------------------
  // The dictionary keyed by calendar week
  // ---------------------------------------------------------------------------

  /** The `%Y-W%W` bucket of a run, or `None` when its date does not parse. */
  function WeekOf(a: Activity, cal: Calendar): (w: Option<string>)
    ensures w.Some? <==> cal.parseDate(DatePrefix(a)).Some?
  {
    match cal.parseDate(DatePrefix(a))
    case Some(day) => Some(cal.weekKey(day))
    case None => None
  }

  predicate DateParses(cal: Calendar, a: Activity) {
    WeekOf(a, cal).Some?
  }

  /**
   The weekly dictionary after the loop has seen `runs`, in Python's insertion
   order: a run whose date parses adds its `amount` (miles or kilometres) to
   its week.
   */
  function Weekly(runs: seq<Activity>, cal: Calendar, amount: Activity -> real): seq<Bucket> {
    if |runs| == 0 then []
    else
      var before := Weekly(runs[..|runs| - 1], cal, amount);
      var last := runs[|runs| - 1];
      match WeekOf(last, cal)
      case Some(week) => AddTo(before, week, amount(last))
      case None => before
  }

  lemma {:induction false} WeeklyDistinct(runs: seq<Activity>, cal: Calendar, amount: Activity -> real)
    ensures DistinctKeys(Weekly(runs, cal, amount))
  {
    if |runs| > 0 {
      var before := runs[..|runs| - 1];
      WeeklyDistinct(before, cal, amount);
      var w := WeekOf(runs[|runs| - 1], cal);
      if w.Some? {
        AddToDistinct(Weekly(before, cal, amount), w.value, amount(runs[|runs| - 1]));
      }
    }
  }

  /** The weeks of the dictionary are exactly the weeks of the runs whose date parses. */
  lemma {:induction false} WeeklyKeys(runs: seq<Activity>, cal: Calendar, amount: Activity -> real)
    ensures Keys(Weekly(runs, cal, amount)) == set a | a in runs && DateParses(cal, a) :: WeekOf(a, cal).value
  {
    if |runs| == 0 {
    } else {
      var before := runs[..|runs| - 1];
      var last := runs[|runs| - 1];
      WeeklyKeys(before, cal, amount);
      assert runs == before + [last];
      var w := WeekOf(last, cal);
      if w.Some? {
        AddToKeys(Weekly(before, cal, amount), w.value, amount(last));
      }
      assert forall a :: a in runs <==> a in before || a == last;
    }
  }

  /** The weekly buckets hold together exactly the amounts of the runs whose date parses. */
  lemma {:induction false} WeeklyTotal(runs: seq<Activity>, cal: Calendar, amount: Activity -> real)
    ensures Sum(Totals(Weekly(runs, cal, amount))) == Sum(Map(Filter(runs, (a: Activity) => DateParses(cal, a)), amount))
  {
    var parses := (a: Activity) => DateParses(cal, a);
    if |runs| > 0 {
      var before := runs[..|runs| - 1];
      var last := runs[|runs| - 1];
      WeeklyTotal(before, cal, amount);
      assert runs == before + [last];
      SumMapFilterSnoc(before, last, parses, amount);
      var w := WeekOf(last, cal);
      if w.Some? {
        AddToTotal(Weekly(before, cal, amount), w.value, amount(last));
      }
    }
  }

  /** With every date parsing, there is a week exactly when there is a run. */
  lemma WeeklyEmptyIff(runs: seq<Activity>, cal: Calendar, amount: Activity -> real)
    requires forall a :: a in runs ==> DateParses(cal, a)
    ensures |Weekly(runs, cal, amount)| == 0 <==> |runs| == 0
  {
    var weekly := Weekly(runs, cal, amount);
    WeeklyKeys(runs, cal, amount);
    if |runs| > 0 {
      assert WeekOf(runs[0], cal).value in Keys(weekly);
    }
  }

  /** With every date parsing, the weeks hold together exactly the amounts of all runs. */
  lemma WeeklyTotalAllParse(runs: seq<Activity>, cal: Calendar, amount: Activity -> real)
    requires forall a :: a in runs ==> DateParses(cal, a)
    ensures Sum(Totals(Weekly(runs, cal, amount))) == Sum(Map(runs, amount))
  {
    WeeklyTotal(runs, cal, amount);
    FilterAll(runs, (a: Activity) => DateParses(cal, a));
  }
}

=== FILE: clock.dfy ===
/**
 The `format_time` rendering shared by the API and the prediction engine:
 a whole number of seconds shown as `h:mm:ss` when it reaches an hour and as
 `m:ss` otherwise. `ParseClock` reads such a rendering back and is the inverse
 the round-trip lemma is stated against.
 */
module Clock {
  import opened Common
  import opened Text

  /** Hours, minutes and seconds with Python's floor `//` and `%` by positive divisors. */
  datatype Hms = Hms(h: int, m: nat, s: nat)

  function Split(t: int): (r: Hms)
    ensures r.h * 3600 + r.m * 60 + r.s == t
    ensures r.m < 60 && r.s < 60
    ensures r.h > 0 <==> t >= 3600
    ensures t >= 0 ==> r.h >= 0
  {
    var h, rest := t / 3600, t % 3600;
    assert t == h * 3600 + rest && 0 <= rest < 3600;
    var m, s := rest / 60, rest % 60;
    assert rest == m * 60 + s && m < 60;
    Hms(h, m, s)
  }

  /** `format_time(total_seconds)` of main.py on an integer argument. */
  function FormatClock(t: int): (out: string)
  {
    var c := Split(t);
    if c.h > 0 then NatToString(c.h) + ":" + Pad2(c.m) + ":" + Pad2(c.s)
    else NatToString(c.m) + ":" + Pad2(c.s)
  }

  /** Reads `h:mm:ss` or `m:ss` back into seconds; `None` for anything else. */
  function ParseClock(text: string): Option<int> {
    var f := Text.Split(text, ':');
    if |f| == 2 && IsNumeral(f[0]) && IsNumeral(f[1]) && |f[1]| == 2 then
      Some(NumeralValue(f[0]) * 60 + NumeralValue(f[1]))
    else if |f| == 3 && IsNumeral(f[0]) && IsNumeral(f[1]) && IsNumeral(f[2])
            && |f[1]| == 2 && |f[2]| == 2 then
      Some(NumeralValue(f[0]) * 3600 + NumeralValue(f[1]) * 60 + NumeralValue(f[2]))
    else None
  }

  /** Three colon-free fields joined by ':' split back into those fields. */
  lemma SplitThree(a: string, b: string, c: string)
    requires ':' !in a && ':' !in b && ':' !in c
    ensures Text.Split(a + ":" + b + ":" + c, ':') == [a, b, c]
  {
    assert a + ":" + b + ":" + c == a + [':'] + (b + [':'] + c);
    SplitAtSeparator(a, ':', b + [':'] + c);
    SplitAtSeparator(b, ':', c);
    SplitNoSeparator(c, ':');
  }

  lemma SplitTwo(a: string, b: string)
    requires ':' !in a && ':' !in b
    ensures Text.Split(a + ":" + b, ':') == [a, b]
  {
    assert a + ":" + b == a + [':'] + b;
    SplitAtSeparator(a, ':', b);
    SplitNoSeparator(b, ':');
  }

  /**
   Rendering loses nothing for a non-negative count of seconds: the text reads
   back as the same number, in the long form exactly when it is an hour or more.
   */
  lemma FormatClockRoundTrip(t: int)
    requires t >= 0
    ensures ParseClock(FormatClock(t)) == Some(t)
    ensures |Text.Split(FormatClock(t), ':')| == (if t >= 3600 then 3 else 2)
  {
    var c := Split(t);
    Pad2RoundTrip(c.m);
    Pad2RoundTrip(c.s);
    NumeralHasNoColon(Pad2(c.m));
    NumeralHasNoColon(Pad2(c.s));
    if c.h > 0 {
      NatToStringRoundTrip(c.h);
      NumeralHasNoColon(NatToString(c.h));
      SplitThree(NatToString(c.h), Pad2(c.m), Pad2(c.s));
    } else {
      NatToStringRoundTrip(c.m);
      NumeralHasNoColon(NatToString(c.m));
      SplitTwo(NatToString(c.m), Pad2(c.s));
    }
  }

  /**
   A negative count is rendered from its minutes and seconds within the hour
   only, so it does not read back as itself.
   */
  lemma FormatClockNegative(t: int)
    requires t < 0
    ensures ParseClock(FormatClock(t)) == Some(t % 3600)
  {
    var c := Split(t);
    Pad2RoundTrip(c.s);
    NumeralHasNoColon(Pad2(c.s));
    NatToStringRoundTrip(c.m);
    NumeralHasNoColon(NatToString(c.m));
    SplitTwo(NatToString(c.m), Pad2(c.s));
  }
}

=== FILE: common.dfy ===
/**
 Shared vocabulary of the model: optional values and results, the numeric
 conversions Python performs implicitly (round, int), and folds over sequences
 of reals (sum, maximum, minimum) with the facts the aggregators rely on.
 */
module Common {

  /** Python's `None` / value. */
  datatype Option<+T> = None | Some(value: T) {
    function GetOr(default: T): T {
      match this
      case Some(v) => v
      case None => default
    }
  }

  /** A computation that either returns a value or raises. */
  datatype Result<+R, +E> = Success(value: R) | Failure(error: E)

  /** The exceptions Python raises on the arithmetic the model performs. */
  datatype PyError = ZeroDivisionError | MathDomainError | DateParseError

  /** Kilometres in a statute mile, as every module of the backend writes it. */
  const KmPerMile: real := 1.60934

  function Abs(x: real): (r: real)
    ensures r >= 0.0
    ensures r == x || r == -x
  {
    if x < 0.0 then -x else x
  }

  /** Python 3 `round(x)`: the nearest integer, halfway cases going to the even one. */
  function Round(x: real): (n: int)
    ensures -0.5 <= x - n as real <= 0.5
    ensures (x - n as real == 0.5 || x - n as real == -0.5) ==> n % 2 == 0
  {
    var f := x.Floor;
    var d := x - f as real;
    if d < 0.5 then f
    else if d > 0.5 then f + 1
    else if f % 2 == 0 then f
    else f + 1
  }

  /** Rounding never reverses the order of two reals. */
  lemma RoundMonotone(x: real, y: real)
    requires x <= y
    ensures Round(x) <= Round(y)
  {
    var fx, fy := x.Floor, y.Floor;
    assert fx <= fy;
    if fx < fy {
      assert Round(x) <= fx + 1 <= fy <= Round(y);
    }
  }

  /** An integral value is its own rounding. */
  lemma RoundOfInt(n: int)
    ensures Round(n as real) == n
  {
  }

  /** Python 3 `round(x, digits)` for `scale == 10^digits`, on exact reals. */
  function RoundTo(x: real, scale: real): (r: real)
    requires scale > 0.0
    ensures -0.5 / scale <= x - r <= 0.5 / scale
  {
    var n := Round(x * scale);
    assert -0.5 <= x * scale - n as real <= 0.5;
    (n as real) / scale
  }

  lemma RoundToMonotone(x: real, y: real, scale: real)
    requires scale > 0.0
    requires x <= y
    ensures RoundTo(x, scale) <= RoundTo(y, scale)
  {
    assert x * scale <= y * scale;
    RoundMonotone(x * scale, y * scale);
  }

  /** Python `int(x)` on a float: truncation toward zero. */
  function Trunc(x: real): (n: int)
    ensures x >= 0.0 ==> 0 <= n && n as real <= x < n as real + 1.0
    ensures x < 0.0 ==> n <= 0 && n as real - 1.0 < x <= n as real
  {
    if x >= 0.0 then x.Floor else -((-x).Floor)
  }

  function Filter<T>(s: seq<T>, p: T -> bool): (r: seq<T>)
    ensures |r| <= |s|
    ensures forall x :: x in r ==> x in s && p(x)
    ensures forall x :: x in s && p(x) ==> x in r
  {
    if |s| == 0 then []
    else if p(s[0]) then [s[0]] + Filter(s[1..], p)
    else Filter(s[1..], p)
  }

  lemma FilterAppend<T>(a: seq<T>, b: seq<T>, p: T -> bool)
    ensures Filter(a + b, p) == Filter(a, p) + Filter(b, p)
  {
    if |a| > 0 {
      assert (a + b)[1..] == a[1..] + b;
      FilterAppend(a[1..], b, p);
    } else {
      assert a + b == b;
    }
  }

  lemma FilterAll<T>(s: seq<T>, p: T -> bool)
    requires forall x :: x in s ==> p(x)
    ensures Filter(s, p) == s
  {
    if |s| > 0 {
      FilterAll(s[1..], p);
    }
  }

  lemma FilterMultiset<T>(s: seq<T>, p: T -> bool)
    ensures multiset(Filter(s, p)) <= multiset(s)
  {
    if |s| > 0 {
      FilterMultiset(s[1..], p);
      assert s == [s[0]] + s[1..];
    }
  }

  function Map<T, U>(s: seq<T>, f: T -> U): (r: seq<U>)
    ensures |r| == |s|
    ensures forall i :: 0 <= i < |s| ==> r[i] == f(s[i])
  {
    if |s| == 0 then [] else [f(s[0])] + Map(s[1..], f)
  }

  lemma MapAppend<T, U>(a: seq<T>, b: seq<T>, f: T -> U)
    ensures Map(a + b, f) == Map(a, f) + Map(b, f)
  {
  }

  /** The elements of `Map(s, f)` are exactly the images of the elements of `s`. */
  lemma MapContains<T, U>(s: seq<T>, f: T -> U)
    ensures forall y :: y in Map(s, f) <==> exists x :: x in s && y == f(x)
  {
    var r := Map(s, f);
    forall y ensures y in r <==> exists x :: x in s && y == f(x) {
      if y in r {
        var i :| 0 <= i < |r| && r[i] == y;
        assert s[i] in s;
      }
      if exists x :: x in s && y == f(x) {
        var x :| x in s && y == f(x);
        var i :| 0 <= i < |s| && s[i] == x;
        assert r[i] == y;
      }
    }
  }

  /** Appending one element to a filtered and mapped sum adds its image when it passes. */
  lemma SumMapFilterSnoc<T>(s: seq<T>, x: T, p: T -> bool, f: T -> real)
    ensures Sum(Map(Filter(s + [x], p), f)) == Sum(Map(Filter(s, p), f)) + (if p(x) then f(x) else 0.0)
  {
    FilterAppend(s, [x], p);
    var kept := Filter(s, p);
    var last := Filter([x], p);
    MapAppend(kept, last, f);
    SumAppend(Map(kept, f), Map(last, f));
    if p(x) {
      assert last == [x];
      assert Sum(Map(last, f)) == f(x) + Sum([]);
    } else {
      assert last == [];
    }
  }

  /** Sequences with the same multiset have the same members. */
  lemma SameMembers<T>(a: seq<T>, b: seq<T>)
    requires multiset(a) == multiset(b)
    ensures forall x :: x in a <==> x in b
  {
    forall x ensures x in a <==> x in b {
      assert x in a <==> x in multiset(a);
      assert x in b <==> x in multiset(b);
    }
  }

  function Sum(s: seq<real>): real {
    if |s| == 0 then 0.0 else s[0] + Sum(s[1..])
  }

  lemma SumAppend(a: seq<real>, b: seq<real>)
    ensures Sum(a + b) == Sum(a) + Sum(b)
  {
    if |a| > 0 {
      assert (a + b)[1..] == a[1..] + b;
      SumAppend(a[1..], b);
    } else {
      assert a + b == b;
    }
  }

  /** Python `max(s)`: the largest element of a non-empty sequence. */
  function Max(s: seq<real>): (m: real)
    requires |s| > 0
    ensures m in s
    ensures forall i :: 0 <= i < |s| ==> s[i] <= m
  {
    if |s| == 1 then s[0]
    else
      var rest := Max(s[1..]);
      assert forall i :: 1 <= i < |s| ==> s[i] == s[1..][i - 1];
      if s[0] >= rest then s[0] else rest
  }

  /** Python `min(s)`: the smallest element of a non-empty sequence. */
  function Min(s: seq<real>): (m: real)
    requires |s| > 0
    ensures m in s
    ensures forall i :: 0 <= i < |s| ==> m <= s[i]
  {
    if |s| == 1 then s[0]
    else
      var rest := Min(s[1..]);
      assert forall i :: 1 <= i < |s| ==> s[i] == s[1..][i - 1];
      if s[0] <= rest then s[0] else rest
  }

  /** Arithmetic mean `sum(s) / len(s)` of a non-empty sequence. */
  function Mean(s: seq<real>): real
    requires |s| > 0
  {
    Sum(s) / (|s| as real)
  }

  lemma {:induction false} SumAtMostCountTimesBound(s: seq<real>, b: real)
    requires forall i :: 0 <= i < |s| ==> s[i] <= b
    ensures Sum(s) <= (|s| as real) * b
  {
    if |s| > 0 {
      assert forall i :: 0 <= i < |s[1..]| ==> s[1..][i] == s[i + 1];
      SumAtMostCountTimesBound(s[1..], b);
    }
  }

  lemma {:induction false} SumAtLeastCountTimesBound(s: seq<real>, b: real)
    requires forall i :: 0 <= i < |s| ==> b <= s[i]
    ensures (|s| as real) * b <= Sum(s)
  {
    if |s| > 0 {
      assert forall i :: 0 <= i < |s[1..]| ==> s[1..][i] == s[i + 1];
      SumAtLeastCountTimesBound(s[1..], b);
    }
  }

  /** The mean of a non-empty sequence never exceeds its maximum. */
  lemma {:induction false} MeanAtMostMax(s: seq<real>)
    requires |s| > 0
    ensures Mean(s) <= Max(s)
  {
    var m, t, n := Max(s), Sum(s), |s| as real;
    SumAtMostCountTimesBound(s, m);
    DivideBound(t, n, m);
  }

  /** The minimum of a non-empty sequence never exceeds its mean. */
  lemma {:induction false} MinAtMostMean(s: seq<real>)
    requires |s| > 0
    ensures Min(s) <= Mean(s)
  {
    var m, t, n := Min(s), Sum(s), |s| as real;
    SumAtLeastCountTimesBound(s, m);
    DivideBound'(t, n, m);
  }

  lemma DivideBound(a: real, n: real, b: real)
    requires n > 0.0 && a <= n * b
    ensures a / n <= b
  {
    var q := a / n;
    assert q * n == a;
    if q > b {
      assert q * n > b * n;
    }
  }

  lemma DivideBound'(a: real, n: real, b: real)
    requires n > 0.0 && n * b <= a
    ensures b <= a / n
  {
    var q := a / n;
    assert q * n == a;
    if q < b {
      assert q * n < b * n;
    }
  }

  /** Dropping non-negative terms from a sum cannot make it larger. */
  lemma {:induction false} SumOfFilterAtMost<T>(s: seq<T>, f: T -> real, p: T -> bool)
    requires forall x :: x in s ==> f(x) >= 0.0
    ensures Sum(Map(Filter(s, p), f)) <= Sum(Map(s, f))
  {
    if |s| > 0 {
      SumOfFilterAtMost(s[1..], f, p);
      assert Map(s, f) == [f(s[0])] + Map(s[1..], f);
      if p(s[0]) {
        assert Filter(s, p) == [s[0]] + Filter(s[1..], p);
        assert Map(Filter(s, p), f) == [f(s[0])] + Map(Filter(s[1..], p), f);
      }
    }
  }
}

=== FILE: database.dfy ===
/**
 The storage rules of the data-collection backend: the anonymised age bucket,
 the prediction error stored with a race result, and the consent, snapshot and
 race-result tables as a value that the consent upsert, the consent lookup and
 the right-to-deletion operation transform.

 A missing connection pool is a store of `None`. Athletes are keyed by a hash
 of their Strava id; the hash function is a parameter, since it is salted
 SHA-256 and nothing here depends on how it is computed.
 */
module Database {
  import opened Common

  // ---------------------------------------------------------------------------
  // age_to_bucket
  // ---------------------------------------------------------------------------

  /** Every bucket `age_to_bucket` can produce, youngest first. */
  const AgeBuckets: seq<string> := ["under-18", "18-24", "25-34", "35-44", "45-54", "55-64", "65+"]

  /** The lowest age of each bucket after the first. */
  const BucketFloors: seq<int> := [18, 25, 35, 45, 55, 65]

  /** `age_to_bucket(age)`; a missing age and age 0 are both falsy and give no bucket. */
  function AgeToBucket(age: Option<int>): (b: Option<string>)
    ensures b.None? <==> age.None? || age.value == 0
    ensures age.Some? && age.value != 0 && age.value < 18 ==> b == Some("under-18")
    ensures b.Some? ==> b.value in AgeBuckets
    ensures age.Some? && age.value >= 18 ==> b.Some? && b.value in AgeBuckets[1..]
  {
    match age
    case None => None
    case Some(a) =>
      if a == 0 then None
      else if a < 18 then Some("under-18")
      else if a <= 24 then Some("18-24")
      else if a <= 34 then Some("25-34")
      else if a <= 44 then Some("35-44")
      else if a <= 54 then Some("45-54")
      else if a <= 64 then Some("55-64")
      else Some("65+")
  }

  /** The number of floors at or below `age`: an independent definition of the bucket index. */
  function FloorsReached(floors: seq<int>, age: int): (n: nat)
    ensures n <= |floors|
  {
    if |floors| == 0 then 0
    else (if floors[0] <= age then 1 else 0) + FloorsReached(floors[1..], age)
  }

  function BucketIndex(age: int): (i: nat)
    ensures i < |AgeBuckets|
  {
    FloorsReached(BucketFloors, age)
  }

  /** Each non-zero age lands in the bucket whose floors it has reached. */
  lemma AgeToBucketIsBand(age: int)
    requires age != 0
    ensures AgeToBucket(Some(age)) == Some(AgeBuckets[BucketIndex(age)])
  {
    var f := BucketFloors;
    assert f[1..] == [25, 35, 45, 55, 65];
    assert f[2..] == [35, 45, 55, 65];
    assert f[3..] == [45, 55, 65];
    assert f[4..] == [55, 65];
    assert f[5..] == [65];
    assert f[6..] == [];
    var n := (if 18 <= age then 1 else 0) + (if 25 <= age then 1 else 0) + (if 35 <= age then 1 else 0)
             + (if 45 <= age then 1 else 0) + (if 55 <= age then 1 else 0) + (if 65 <= age then 1 else 0);
    assert BucketIndex(age) == n by {
      assert FloorsReached(f[5..], age) == (if 65 <= age then 1 else 0);
      assert FloorsReached(f[4..], age) == (if 55 <= age then 1 else 0) + FloorsReached(f[5..], age);
      assert FloorsReached(f[3..], age) == (if 45 <= age then 1 else 0) + FloorsReached(f[4..], age);
      assert FloorsReached(f[2..], age) == (if 35 <= age then 1 else 0) + FloorsReached(f[3..], age);
      assert FloorsReached(f[1..], age) == (if 25 <= age then 1 else 0) + FloorsReached(f[2..], age);
    }
  }

  /** Reaching floors is monotone: an older age reaches at least as many. */
  lemma {:induction false} FloorsReachedMonotone(floors: seq<int>, a: int, b: int)
    requires a <= b
    ensures FloorsReached(floors, a) <= FloorsReached(floors, b)
  {
    if |floors| > 0 {
      FloorsReachedMonotone(floors[1..], a, b);
    }
  }

  /** Older athletes never fall into a younger bucket. */
  lemma BucketIndexMonotone(a: int, b: int)
    requires a <= b
    ensures BucketIndex(a) <= BucketIndex(b)
  {
    FloorsReachedMonotone(BucketFloors, a, b);
  }

  // ---------------------------------------------------------------------------
  // The prediction error of store_race_result
  // ---------------------------------------------------------------------------

  datatype PredictionError = PredictionError(seconds: int, pct: real)

  /**
   `prediction_error` and `prediction_error_pct`, computed only when both the
   predicted and the actual time are truthy (present and non-zero).
   */
  function PredictionErrorOf(predicted: Option<int>, goalSeconds: int): (e: Option<PredictionError>)
    ensures e.Some? <==> predicted.Some? && predicted.value != 0 && goalSeconds != 0
    ensures e.Some? ==> predicted.value == goalSeconds + e.value.seconds
    ensures e.Some? ==> e.value.pct * (goalSeconds as real) == (e.value.seconds as real) * 100.0
  {
    if predicted.Some? && predicted.value != 0 && goalSeconds != 0 then
      var error := predicted.value - goalSeconds;
      Some(PredictionError(error, (error as real / goalSeconds as real) * 100.0))
    else None
  }

  /** For a positive actual time the percentage has the sign of the error: slower than predicted is negative. */
  lemma PredictionErrorSign(predicted: Option<int>, goalSeconds: int)
    requires goalSeconds > 0
    ensures var e := PredictionErrorOf(predicted, goalSeconds);
            e.Some? ==> && (e.value.pct > 0.0 <==> e.value.seconds > 0)
                        && (e.value.pct == 0.0 <==> e.value.seconds == 0)
                        && (e.value.pct < 0.0 <==> e.value.seconds < 0)
  {
    var e := PredictionErrorOf(predicted, goalSeconds);
    if e.Some? {
      var g := goalSeconds as real;
      assert e.value.pct * g == (e.value.seconds as real) * 100.0;
      if e.value.pct > 0.0 {
        assert e.value.pct * g > 0.0;
      } else if e.value.pct < 0.0 {
        assert e.value.pct * g < 0.0;
      }
    }
  }

  // ---------------------------------------------------------------------------
  // The tables
  // ---------------------------------------------------------------------------

  /**
   One `data_consent` row; timestamps as instants. `createdAt` is the
   `DEFAULT NOW()` column, filled when the row is inserted and never updated.
   */
  datatype ConsentRow = ConsentRow(optedIn: bool, optedInAt: Option<int>, optedOutAt: Option<int>, createdAt: int)

  datatype SnapshotRow = SnapshotRow(id: int, athleteHash: string, snapshotDate: int)

  datatype ResultRow = ResultRow(id: int, athleteHash: string, snapshotId: Option<int>, error: Option<PredictionError>)

  /** The three tables keyed by athlete hash; `data_consent` has the hash as primary key. */
  datatype Tables = Tables(consent: map<string, ConsentRow>, snapshots: seq<SnapshotRow>, results: seq<ResultRow>)

  /** `get_consent`: false without a pool or without a row for the athlete's hash. */
  function GetConsent(store: Option<Tables>, hash: int -> string, athleteId: int): (optedIn: bool)
    ensures optedIn <==> store.Some? && hash(athleteId) in store.value.consent
                         && store.value.consent[hash(athleteId)].optedIn
  {
    match store
    case None => false
    case Some(t) =>
      var key := hash(athleteId);
      if key in t.consent then t.consent[key].optedIn else false
  }

  /**
   `set_consent`: the upsert on `data_consent`. A new row gets only the
   timestamp of the choice made and is created at `now`; an existing row keeps
   the timestamp of the other choice and its creation time. Without a pool
   nothing happens.
   */
  function SetConsent(store: Option<Tables>, hash: int -> string, athleteId: int, optedIn: bool, now: int)
    : (r: Option<Tables>)
    ensures store.None? ==> r.None?
    ensures store.Some? ==> r.Some?
    ensures store.Some? ==>
              var before, key := store.value, hash(athleteId);
              key in r.value.consent &&
              var row := r.value.consent[key];
              && row.optedIn == optedIn
              && (optedIn ==> row.optedInAt == Some(now))
              && (!optedIn ==> row.optedOutAt == Some(now))
              && (key !in before.consent ==> (optedIn ==> row.optedOutAt.None?) && (!optedIn ==> row.optedInAt.None?))
              && (key !in before.consent ==> row.createdAt == now)
              && (key in before.consent ==> row.createdAt == before.consent[key].createdAt)
              && (key in before.consent && optedIn ==> row.optedOutAt == before.consent[key].optedOutAt)
              && (key in before.consent && !optedIn ==> row.optedInAt == before.consent[key].optedInAt)
    ensures store.Some? ==>
              && r.value.snapshots == store.value.snapshots
              && r.value.results == store.value.results
              && (forall k :: k != hash(athleteId) ==>
                    (k in r.value.consent <==> k in store.value.consent)
                    && (k in store.value.consent ==> r.value.consent[k] == store.value.consent[k]))
  {
    match store
    case None => None
    case Some(t) =>
      var key := hash(athleteId);
      var inserted := ConsentRow(optedIn, if optedIn then Some(now) else None, if !optedIn then Some(now) else None, now);
      var row :=
        if key !in t.consent then inserted
        else
          var existing := t.consent[key];
          ConsentRow(optedIn,
                     if optedIn then inserted.optedInAt else existing.optedInAt,
                     if !optedIn then inserted.optedOutAt else existing.optedOutAt,
                     existing.createdAt);
      Some(t.(consent := t.consent[key := row]))
  }

  /** Reading consent back after setting it gives the choice just made. */
  lemma GetAfterSet(store: Option<Tables>, hash: int -> string, athleteId: int, optedIn: bool, now: int)
    requires store.Some?
    ensures GetConsent(SetConsent(store, hash, athleteId, optedIn, now), hash, athleteId) == optedIn
  {
  }

  /** Setting one athlete's consent leaves what every other hash reads unchanged. */
  lemma SetLeavesOthers(store: Option<Tables>, hash: int -> string, athleteId: int, other: int, optedIn: bool, now: int)
    requires hash(other) != hash(athleteId)
    ensures GetConsent(SetConsent(store, hash, athleteId, optedIn, now), hash, other) == GetConsent(store, hash, other)
  {
  }

  /**
   Repeating a choice only moves its timestamp: setting twice is setting once
   at the later time, except that the row keeps the creation time of the first
   write. For an athlete who already had a row, the two are equal.
   */
  lemma SetTwiceIsSetOnce(store: Option<Tables>, hash: int -> string, athleteId: int, optedIn: bool, t1: int, t2: int)
    ensures var first := SetConsent(store, hash, athleteId, optedIn, t1);
            var twice := SetConsent(first, hash, athleteId, optedIn, t2);
            var once := SetConsent(store, hash, athleteId, optedIn, t2);
            var key := hash(athleteId);
            && (store.None? ==> twice.None? && once.None?)
            && (store.Some? ==>
                  twice.value == once.value.(consent := once.value.consent[key := once.value.consent[key].(createdAt := first.value.consent[key].createdAt)]))
    ensures store.Some? && hash(athleteId) in store.value.consent ==>
              SetConsent(SetConsent(store, hash, athleteId, optedIn, t1), hash, athleteId, optedIn, t2)
              == SetConsent(store, hash, athleteId, optedIn, t2)
  {
    if store.Some? {
      var key := hash(athleteId);
      var first := SetConsent(store, hash, athleteId, optedIn, t1).value;
      var twice := SetConsent(Some(first), hash, athleteId, optedIn, t2).value;
      var once := SetConsent(store, hash, athleteId, optedIn, t2).value;
      var expected := once.(consent := once.consent[key := once.consent[key].(createdAt := first.consent[key].createdAt)]);
      assert twice.consent == expected.consent by {
        assert twice.consent[key] == expected.consent[key];
        assert forall k :: k in twice.consent <==> k in expected.consent;
      }
      if key in store.value.consent {
        assert first.consent[key].createdAt == once.consent[key].createdAt;
        assert once.consent[key := once.consent[key]] == once.consent;
      }
    }
  }

  /**
   `delete_athlete_data`: in one transaction, every race result, snapshot and
   consent row of the athlete's hash goes; every other row stays, in order.
   */
  function DeleteAthleteData(store: Option<Tables>, hash: int -> string, athleteId: int): (r: Option<Tables>)
    ensures store.None? ==> r.None?
    ensures store.Some? ==>
              var key := hash(athleteId);
              && r.Some?
              && key !in r.value.consent
              && (forall row :: row in r.value.snapshots ==> row.athleteHash != key)
              && (forall row :: row in r.value.results ==> row.athleteHash != key)
              && (forall k :: k != key ==>
                    (k in r.value.consent <==> k in store.value.consent)
                    && (k in store.value.consent ==> r.value.consent[k] == store.value.consent[k]))
              && (forall row: SnapshotRow :: row.athleteHash != key ==> (row in r.value.snapshots <==> row in store.value.snapshots))
              && (forall row: ResultRow :: row.athleteHash != key ==> (row in r.value.results <==> row in store.value.results))
  {
    match store
    case None => None
    case Some(t) =>
      var key := hash(athleteId);
      Some(Tables(
        t.consent - {key},
        Filter(t.snapshots, (row: SnapshotRow) => row.athleteHash != key),
        Filter(t.results, (row: ResultRow) => row.athleteHash != key)))
  }

  /** After deletion the athlete reads as not opted in. */
  lemma DeleteRevokesConsent(store: Option<Tables>, hash: int -> string, athleteId: int)
    ensures !GetConsent(DeleteAthleteData(store, hash, athleteId), hash, athleteId)
  {
  }

  /** Deleting twice is deleting once. */
  lemma {:induction false} DeleteIdempotent(store: Option<Tables>, hash: int -> string, athleteId: int)
    ensures DeleteAthleteData(DeleteAthleteData(store, hash, athleteId), hash, athleteId)
            == DeleteAthleteData(store, hash, athleteId)
  {
    if store.Some? {
      var key := hash(athleteId);
      var once := DeleteAthleteData(store, hash, athleteId).value;
      FilterAll(once.snapshots, (row: SnapshotRow) => row.athleteHash != key);
      FilterAll(once.results, (row: ResultRow) => row.athleteHash != key);
      assert once.consent - {key} == once.consent;
    }
  }
}

=== FILE: prediction_engine.dfy ===
/**
 The race-time prediction engine: Riegel's power law
 `race_time * (goal / race) ^ exponent`, scaled by an experience factor and an
 age factor, with an uncertainty band and a table of equivalent times at the
 seven standard distances.

 `math.pow` and `math.log` are not computed here: they arrive as the fields of
 an `Analytic` value, and the lemmas that need any of their laws ask for them
 through `Lawful`.
 */
module PredictionEngine {
  import opened Common
  import Clock

  datatype StandardDistance = StandardDistance(name: string, km: real)

  /** `DISTANCES`, in its declaration order. */
  const Distances: seq<StandardDistance> := [
    StandardDistance("1 Mile", 1.60934),
    StandardDistance("5K", 5.0),
    StandardDistance("10K", 10.0),
    StandardDistance("15K", 15.0),
    StandardDistance("Half Marathon", 21.0975),
    StandardDistance("Marathon", 42.195),
    StandardDistance("50K", 50.0)
  ]

  const ExperienceFactors: map<string, real> := map[
    "beginner" := 1.06,
    "intermediate" := 1.0,
    "advanced" := 0.97,
    "elite" := 0.94
  ]

  /** `math.pow` and `math.log`. */
  datatype Analytic = Analytic(pow: (real, real) -> real, log: real -> real)

  /** The laws of the real power and logarithm functions the proofs use. */
  ghost predicate Lawful(an: Analytic) {
    && (forall e :: an.pow(1.0, e) == 1.0)
    && an.log(1.0) == 0.0
    && (forall x, e :: x > 0.0 ==> an.pow(x, e) > 0.0)
    && (forall x, e, e' :: x >= 1.0 && e <= e' ==> an.pow(x, e) <= an.pow(x, e'))
  }

  /** The engine's `format_time`: `int(round(total_seconds))`, then `h:mm:ss` or `m:ss`. */
  function FormatTime(totalSeconds: real): string {
    Clock.FormatClock(Round(totalSeconds))
  }

  /** A non-negative time reads back as its rounded number of seconds. */
  lemma FormatTimeRoundTrip(totalSeconds: real)
    requires totalSeconds >= 0.0
    ensures Clock.ParseClock(FormatTime(totalSeconds)) == Some(Round(totalSeconds))
  {
    var t := Round(totalSeconds);
    assert t >= 0;
    Clock.FormatClockRoundTrip(t);
  }

  /**
   Riegel exponent from weekly mileage: 1.06 by default, lowered for high
   mileage, raised below 15 miles a week. Zero mileage counts as "not given".
   */
  function Exponent(weeklyMiles: real): (e: real)
    ensures e == 1.03 || e == 1.04 || e == 1.05 || e == 1.06 || e == 1.08
    ensures e == 1.06 <==> weeklyMiles == 0.0 || 15.0 <= weeklyMiles < 30.0
  {
    var exponent := 1.06;
    if weeklyMiles == 0.0 then exponent
    else if weeklyMiles >= 60.0 then exponent - 0.03
    else if weeklyMiles >= 45.0 then exponent - 0.02
    else if weeklyMiles >= 30.0 then exponent - 0.01
    else if weeklyMiles < 15.0 then exponent + 0.02
    else exponent
  }

  /** More positive weekly mileage never raises the exponent. */
  lemma ExponentNonIncreasing(a: real, b: real)
    requires 0.0 < a <= b
    ensures Exponent(b) <= Exponent(a)
  {
  }

  /** `EXPERIENCE_FACTORS.get(experience, 1.0)`. */
  function ExperienceFactor(experience: string): (f: real)
    ensures experience !in ExperienceFactors ==> f == 1.0
    ensures 0.94 <= f <= 1.06
  {
    if experience in ExperienceFactors then ExperienceFactors[experience] else 1.0
  }

  /** Beginners are penalised most and elites least; intermediates are neutral. */
  lemma ExperienceTiersOrdered()
    ensures ExperienceFactor("beginner") > ExperienceFactor("intermediate")
              > ExperienceFactor("advanced") > ExperienceFactor("elite")
    ensures ExperienceFactor("intermediate") == 1.0
  {
  }

  /**
   Age grading: no adjustment for a missing (zero or negative) age or for
   20-35, a flat youth penalty below 20, and a piecewise-linear penalty past 35.
   */
  function AgeFactor(age: int): (f: real)
    ensures f >= 1.0
    ensures f == 1.0 <==> age <= 0 || 20 <= age <= 35
    ensures f == 1.03 <==> 1 <= age <= 19
  {
    if age <= 0 then 1.0
    else if age < 20 then 1.03
    else if age <= 35 then 1.0
    else if age <= 45 then 1.0 + (age - 35) as real * 0.004
    else if age <= 55 then 1.04 + (age - 45) as real * 0.006
    else if age <= 65 then 1.10 + (age - 55) as real * 0.008
    else 1.18 + (age - 65) as real * 0.01
  }

  /**
   Past 35, every year adds exactly the slope of the band it ends in, so the
   bands meet without a jump at 45, 55 and 65.
   */
  lemma AgeFactorStep(age: int)
    requires age >= 35
    ensures AgeFactor(age + 1) - AgeFactor(age)
            == if age < 45 then 0.004 else if age < 55 then 0.006 else if age < 65 then 0.008 else 0.01
  {
  }

  /** From 20 on, the age factor never decreases with age. */
  lemma AgeFactorNonDecreasing(a: int, b: int)
    requires 20 <= a <= b
    ensures AgeFactor(a) <= AgeFactor(b)
  {
  }

  /** The three multipliers the prediction and every equivalent share. */
  datatype Factors = Factors(exponent: real, expFactor: real, ageFactor: real)

  function SelectFactors(weeklyMiles: real, age: int, experience: string): (f: Factors)
    ensures f.expFactor > 0.0 && f.ageFactor >= 1.0 && f.exponent > 1.0
  {
    Factors(Exponent(weeklyMiles), ExperienceFactor(experience), AgeFactor(age))
  }

  /** `min(0.06, 0.03 + abs(log(ratio)) * 0.008)`. */
  function Uncertainty(ratio: real, an: Analytic): (u: real)
    ensures 0.03 <= u <= 0.06
  {
    var widened := 0.03 + Abs(an.log(ratio)) * 0.008;
    if widened < 0.06 then widened else 0.06
  }

  /** The band widens with the distance between goal and race in log terms. */
  lemma UncertaintyMonotone(r1: real, r2: real, an: Analytic)
    requires Abs(an.log(r1)) <= Abs(an.log(r2))
    ensures Uncertainty(r1, an) <= Uncertainty(r2, an)
  {
  }

  /** The narrowest band belongs to a goal at the race distance itself. */
  lemma UncertaintyAtSameDistance(an: Analytic)
    requires Lawful(an)
    ensures Uncertainty(1.0, an) == 0.03
  {
  }

  /** `race_time * pow(goal / race, exponent) * exp_factor * age_factor`. */
  function Adjusted(raceTime: int, raceKm: real, goalKm: real, f: Factors, an: Analytic): real
    requires raceKm != 0.0
  {
    raceTime as real * an.pow(goalKm / raceKm, f.exponent) * f.expFactor * f.ageFactor
  }

  /** The race time under the experience and age factors alone. */
  function Scaled(raceTime: int, f: Factors): real {
    raceTime as real * f.expFactor * f.ageFactor
  }

  /** The ends of the band, `adjusted * (1 - u)` and `adjusted * (1 + u)`. */
  function LowEnd(adjusted: real, u: real): real {
    adjusted * (1.0 - u)
  }

  function HighEnd(adjusted: real, u: real): real {
    adjusted * (1.0 + u)
  }

  /** Seconds per mile of a time over `km` kilometres. */
  function PerMile(seconds: real, km: real): real
    requires km != 0.0
  {
    seconds / km * KmPerMile
  }

  datatype Equivalent = Equivalent(name: string, timeSeconds: int, timeFormatted: string, pacePerMile: string)

  datatype Prediction = Prediction(
    predictedSeconds: int,
    predictedFormatted: string,
    lowSeconds: int,
    lowFormatted: string,
    highSeconds: int,
    highFormatted: string,
    uncertaintyPct: real,
    pacePerMile: string,
    pacePerKm: string,
    equivalents: seq<Equivalent>)

  /** Every standard distance is positive. */
  lemma DistancesPositive()
    ensures forall i :: 0 <= i < |Distances| ==> Distances[i].km > 0.0
  {
  }

  /** One row of the equivalents table. */
  function EquivalentAt(d: StandardDistance, raceTime: int, raceKm: real, f: Factors, an: Analytic): Equivalent
    requires raceKm > 0.0 && d.km > 0.0
  {
    var eqAdj := Adjusted(raceTime, raceKm, d.km, f, an);
    Equivalent(d.name, Round(eqAdj), FormatTime(Round(eqAdj) as real),
               FormatTime(Round(PerMile(eqAdj, d.km)) as real))
  }

  /** The equivalents table over the distances `ds`, one row each, in order. */
  function EquivalentsOver(ds: seq<StandardDistance>, raceTime: int, raceKm: real, f: Factors, an: Analytic)
    : (eq: seq<Equivalent>)
    requires raceKm > 0.0
    requires forall d :: d in ds ==> d.km > 0.0
    ensures |eq| == |ds|
    ensures forall i :: 0 <= i < |ds| ==> eq[i] == EquivalentAt(ds[i], raceTime, raceKm, f, an)
  {
    if |ds| == 0 then []
    else [EquivalentAt(ds[0], raceTime, raceKm, f, an)] + EquivalentsOver(ds[1..], raceTime, raceKm, f, an)
  }

  function Equivalents(raceTime: int, raceKm: real, f: Factors, an: Analytic): (eq: seq<Equivalent>)
    requires raceKm > 0.0
    ensures |eq| == |Distances|
  {
    EquivalentsOver(Distances, raceTime, raceKm, f, an)
  }

  /** The prediction for positive distances under the selected factors. */
  function PredictWith(raceTime: int, raceKm: real, goalKm: real, f: Factors, an: Analytic): (p: Prediction)
    requires raceKm > 0.0 && goalKm > 0.0
    ensures 3.0 <= p.uncertaintyPct <= 6.0
    ensures |p.equivalents| == |Distances|
  {
    var adjusted := Adjusted(raceTime, raceKm, goalKm, f, an);
    var u := Uncertainty(goalKm / raceKm, an);
    PercentInRange(u);
    Prediction(
      Round(adjusted), FormatTime(Round(adjusted) as real),
      Round(LowEnd(adjusted, u)), FormatTime(Round(LowEnd(adjusted, u)) as real),
      Round(HighEnd(adjusted, u)), FormatTime(Round(HighEnd(adjusted, u)) as real),
      RoundTo(u * 100.0, 10.0),
      FormatTime(Round(PerMile(adjusted, goalKm)) as real), FormatTime(Round(adjusted / goalKm) as real),
      Equivalents(raceTime, raceKm, f, an))
  }

  /**
   `calculate_prediction`. Python raises ZeroDivisionError for a zero race
   distance and a math domain error (from `pow` of a negative ratio, or `log`
   of a zero one) whenever either distance is not positive.
   */
  function CalculatePrediction(raceTime: int, raceKm: real, goalKm: real, weeklyMiles: real,
                               age: int, experience: string, an: Analytic): (r: Result<Prediction, PyError>)
    ensures r.Success? <==> raceKm > 0.0 && goalKm > 0.0
    ensures raceKm == 0.0 ==> r == Failure(ZeroDivisionError)
    ensures r.Failure? && raceKm != 0.0 ==> r.error == MathDomainError
    ensures r.Success? ==> 3.0 <= r.value.uncertaintyPct <= 6.0
    ensures r.Success? ==> |r.value.equivalents| == |Distances|
  {
    if raceKm == 0.0 then Failure(ZeroDivisionError)
    else if !(raceKm > 0.0 && goalKm > 0.0) then Failure(MathDomainError)
    else Success(PredictWith(raceTime, raceKm, goalKm, SelectFactors(weeklyMiles, age, experience), an))
  }

  /** `round(u * 100, 1)` stays within [3.0, 6.0] for u in [0.03, 0.06]. */
  lemma PercentInRange(u: real)
    requires 0.03 <= u <= 0.06
    ensures 3.0 <= RoundTo(u * 100.0, 10.0) <= 6.0
  {
    RoundToMonotone(3.0, u * 100.0, 10.0);
    RoundToMonotone(u * 100.0, 6.0, 10.0);
    RoundOfInt(30);
    RoundOfInt(60);
    assert 3.0 * 10.0 == 30 as real;
    assert 6.0 * 10.0 == 60 as real;
  }

  /** Both distances positive: `calculate_prediction` returns the prediction under the selected factors. */
  lemma CalculateIsPredictWith(raceTime: int, raceKm: real, goalKm: real, weeklyMiles: real,
                               age: int, experience: string, an: Analytic)
    requires raceKm > 0.0 && goalKm > 0.0
    ensures CalculatePrediction(raceTime, raceKm, goalKm, weeklyMiles, age, experience, an)
            == Success(PredictWith(raceTime, raceKm, goalKm, SelectFactors(weeklyMiles, age, experience), an))
  {
  }

  /** At the race distance the power term is `pow(1, e) = 1`. */
  lemma AdjustedAtSameDistance(raceTime: int, km: real, f: Factors, an: Analytic)
    requires Lawful(an)
    requires km > 0.0
    ensures km / km == 1.0
    ensures Adjusted(raceTime, km, km, f, an) == Scaled(raceTime, f)
  {
    assert km / km == 1.0;
    assert an.pow(km / km, f.exponent) == 1.0;
  }

  /** `round(0.03 * 100, 1)` is 3.0. */
  lemma NarrowestPercent()
    ensures RoundTo(0.03 * 100.0, 10.0) == 3.0
  {
    RoundOfInt(30);
    assert 0.03 * 100.0 * 10.0 == 30 as real;
  }

  lemma ScaledSelected(raceTime: int, weeklyMiles: real, age: int, experience: string)
    ensures Scaled(raceTime, SelectFactors(weeklyMiles, age, experience))
            == raceTime as real * ExperienceFactor(experience) * AgeFactor(age)
  {
  }

  lemma PredictWithSameDistance(raceTime: int, km: real, f: Factors, an: Analytic)
    requires Lawful(an)
    requires km > 0.0
    ensures PredictWith(raceTime, km, km, f, an).predictedSeconds == Round(Scaled(raceTime, f))
    ensures PredictWith(raceTime, km, km, f, an).uncertaintyPct == 3.0
  {
    AdjustedAtSameDistance(raceTime, km, f, an);
    UncertaintyAtSameDistance(an);
    NarrowestPercent();
  }

  /**
   Goal at the race distance: the power term vanishes, so the prediction is
   the race time scaled by the experience and age factors alone, inside the
   narrowest (3%) band.
   */
  lemma SameDistancePrediction(raceTime: int, km: real, weeklyMiles: real, age: int,
                               experience: string, an: Analytic)
    requires Lawful(an)
    requires km > 0.0
    ensures var r := CalculatePrediction(raceTime, km, km, weeklyMiles, age, experience, an);
            && r.Success?
            && r.value.predictedSeconds
               == Round(raceTime as real * ExperienceFactor(experience) * AgeFactor(age))
            && r.value.uncertaintyPct == 3.0
  {
    CalculateIsPredictWith(raceTime, km, km, weeklyMiles, age, experience, an);
    PredictWithSameDistance(raceTime, km, SelectFactors(weeklyMiles, age, experience), an);
    ScaledSelected(raceTime, weeklyMiles, age, experience);
  }

  /**
   The regression guard: with neutral experience and a neutral age, a goal at
   the race distance predicts exactly the race time.
   */
  lemma SameDistanceNeutralIsIdentity(raceTime: int, km: real, weeklyMiles: real, age: int, an: Analytic)
    requires Lawful(an)
    requires km > 0.0
    requires age <= 0 || 20 <= age <= 35
    ensures CalculatePrediction(raceTime, km, km, weeklyMiles, age, "intermediate", an).value.predictedSeconds
            == raceTime
  {
    SameDistancePrediction(raceTime, km, weeklyMiles, age, "intermediate", an);
    assert raceTime as real * ExperienceFactor("intermediate") * AgeFactor(age) == raceTime as real;
    RoundOfInt(raceTime);
  }

  lemma ScaleMonotone(a: real, b: real, c: real)
    requires a <= b && c >= 0.0
    ensures a * c <= b * c
  {
  }

  /** A non-negative race time gives a non-negative adjusted time. */
  lemma AdjustedNonNegative(raceTime: int, raceKm: real, goalKm: real, f: Factors, an: Analytic)
    requires Lawful(an)
    requires raceTime >= 0 && raceKm > 0.0 && goalKm > 0.0
    requires f.expFactor > 0.0 && f.ageFactor > 0.0
    ensures Adjusted(raceTime, raceKm, goalKm, f, an) >= 0.0
  {
    var pw := an.pow(goalKm / raceKm, f.exponent);
    assert pw > 0.0;
    ScaleMonotone(0.0, raceTime as real, pw);
    ScaleMonotone(0.0, raceTime as real * pw, f.expFactor);
    ScaleMonotone(0.0, raceTime as real * pw * f.expFactor, f.ageFactor);
  }

  /** Rounding keeps the ends of a band around a non-negative time on either side of it. */
  lemma BandBrackets(adjusted: real, u: real)
    requires adjusted >= 0.0 && u >= 0.0
    ensures Round(LowEnd(adjusted, u)) <= Round(adjusted) <= Round(HighEnd(adjusted, u))
  {
    ScaleMonotone(1.0 - u, 1.0, adjusted);
    ScaleMonotone(1.0, 1.0 + u, adjusted);
    RoundMonotone(LowEnd(adjusted, u), adjusted);
    RoundMonotone(adjusted, HighEnd(adjusted, u));
  }

  lemma PredictWithBrackets(raceTime: int, raceKm: real, goalKm: real, f: Factors, an: Analytic)
    requires Lawful(an)
    requires raceTime >= 0 && raceKm > 0.0 && goalKm > 0.0
    requires f.expFactor > 0.0 && f.ageFactor > 0.0
    ensures PredictWith(raceTime, raceKm, goalKm, f, an).lowSeconds
            <= PredictWith(raceTime, raceKm, goalKm, f, an).predictedSeconds
            <= PredictWith(raceTime, raceKm, goalKm, f, an).highSeconds
  {
    AdjustedNonNegative(raceTime, raceKm, goalKm, f, an);
    BandBrackets(Adjusted(raceTime, raceKm, goalKm, f, an), Uncertainty(goalKm / raceKm, an));
  }

  /**
   For a non-negative race time the low and high bounds bracket the
   prediction: the adjusted time is non-negative and rounding keeps order.
   */
  lemma BoundsBracketPrediction(raceTime: int, raceKm: real, goalKm: real, weeklyMiles: real,
                                age: int, experience: string, an: Analytic)
    requires Lawful(an)
    requires raceTime >= 0 && raceKm > 0.0 && goalKm > 0.0
    ensures var p := CalculatePrediction(raceTime, raceKm, goalKm, weeklyMiles, age, experience, an).value;
            p.lowSeconds <= p.predictedSeconds <= p.highSeconds
  {
    CalculateIsPredictWith(raceTime, raceKm, goalKm, weeklyMiles, age, experience, an);
    PredictWithBrackets(raceTime, raceKm, goalKm, SelectFactors(weeklyMiles, age, experience), an);
  }

  lemma PredictWithEquivalent(raceTime: int, raceKm: real, goalKm: real, f: Factors, an: Analytic, i: int)
    requires raceKm > 0.0 && goalKm > 0.0
    requires 0 <= i < |Distances|
    ensures Distances[i].km > 0.0
    ensures PredictWith(raceTime, raceKm, goalKm, f, an).equivalents[i].timeSeconds
            == PredictWith(raceTime, raceKm, Distances[i].km, f, an).predictedSeconds
    ensures PredictWith(raceTime, raceKm, goalKm, f, an).equivalents[i].timeFormatted
            == PredictWith(raceTime, raceKm, Distances[i].km, f, an).predictedFormatted
    ensures PredictWith(raceTime, raceKm, goalKm, f, an).equivalents[i].pacePerMile
            == PredictWith(raceTime, raceKm, Distances[i].km, f, an).pacePerMile
  {
    DistancesPositive();
  }

  /**
   Every row of the equivalents table is the prediction the engine would make
   with that standard distance as the goal, under the same factors.
   */
  lemma EquivalentsAreGoalPredictions(raceTime: int, raceKm: real, goalKm: real, weeklyMiles: real,
                                      age: int, experience: string, an: Analytic, i: int)
    requires raceKm > 0.0 && goalKm > 0.0
    requires 0 <= i < |Distances|
    ensures var p := CalculatePrediction(raceTime, raceKm, goalKm, weeklyMiles, age, experience, an).value;
            var q := CalculatePrediction(raceTime, raceKm, Distances[i].km, weeklyMiles, age, experience, an);
            && q.Success?
            && p.equivalents[i].timeSeconds == q.value.predictedSeconds
            && p.equivalents[i].timeFormatted == q.value.predictedFormatted
            && p.equivalents[i].pacePerMile == q.value.pacePerMile
  {
    PredictWithEquivalent(raceTime, raceKm, goalKm, SelectFactors(weeklyMiles, age, experience), an, i);
    CalculateIsPredictWith(raceTime, raceKm, goalKm, weeklyMiles, age, experience, an);
    CalculateIsPredictWith(raceTime, raceKm, Distances[i].km, weeklyMiles, age, experience, an);
  }

  /** With a ratio of at least one, a smaller exponent gives a no-larger adjusted time. */
  lemma AdjustedExponentMonotone(raceTime: int, raceKm: real, goalKm: real, fa: Factors, fb: Factors, an: Analytic)
    requires Lawful(an)
    requires raceTime >= 0 && 0.0 < raceKm <= goalKm
    requires fb.exponent <= fa.exponent && fa.expFactor == fb.expFactor && fa.ageFactor == fb.ageFactor
    requires fa.expFactor > 0.0 && fa.ageFactor > 0.0
    ensures Adjusted(raceTime, raceKm, goalKm, fb, an) <= Adjusted(raceTime, raceKm, goalKm, fa, an)
  {
    var ratio := goalKm / raceKm;
    assert ratio >= 1.0;
    var pa, pb := an.pow(ratio, fa.exponent), an.pow(ratio, fb.exponent);
    assert pb <= pa;
    ScaleMonotone(pb, pa, raceTime as real);
    assert raceTime as real * pb <= raceTime as real * pa;
    ScaleMonotone(raceTime as real * pb, raceTime as real * pa, fa.expFactor);
    ScaleMonotone(raceTime as real * pb * fa.expFactor, raceTime as real * pa * fa.expFactor, fa.ageFactor);
  }

  lemma PredictWithExponentMonotone(raceTime: int, raceKm: real, goalKm: real, fa: Factors, fb: Factors, an: Analytic)
    requires Lawful(an)
    requires raceTime >= 0 && 0.0 < raceKm <= goalKm
    requires fb.exponent <= fa.exponent && fa.expFactor == fb.expFactor && fa.ageFactor == fb.ageFactor
    requires fa.expFactor > 0.0 && fa.ageFactor > 0.0
    ensures PredictWith(raceTime, raceKm, goalKm, fb, an).predictedSeconds
            <= PredictWith(raceTime, raceKm, goalKm, fa, an).predictedSeconds
  {
    AdjustedExponentMonotone(raceTime, raceKm, goalKm, fa, fb, an);
    RoundMonotone(Adjusted(raceTime, raceKm, goalKm, fb, an), Adjusted(raceTime, raceKm, goalKm, fa, an));
  }

  /**
   For a goal at least as long as the race, more positive weekly mileage never
   predicts a slower time: the exponent drops, and a smaller power of a ratio
   of at least one is no larger.
   */
  lemma MoreMileageNeverSlower(raceTime: int, raceKm: real, goalKm: real, a: real, b: real,
                               age: int, experience: string, an: Analytic)
    requires Lawful(an)
    requires raceTime >= 0 && 0.0 < raceKm <= goalKm
    requires 0.0 < a <= b
    ensures CalculatePrediction(raceTime, raceKm, goalKm, b, age, experience, an).value.predictedSeconds
            <= CalculatePrediction(raceTime, raceKm, goalKm, a, age, experience, an).value.predictedSeconds
  {
    ExponentNonIncreasing(a, b);
    CalculateIsPredictWith(raceTime, raceKm, goalKm, a, age, experience, an);
    CalculateIsPredictWith(raceTime, raceKm, goalKm, b, age, experience, an);
    PredictWithExponentMonotone(raceTime, raceKm, goalKm,
      SelectFactors(a, age, experience), SelectFactors(b, age, experience), an);
  }
}

=== FILE: sorting.dfy ===
/**
 Python's `sorted`/`list.sort` with a key: a stable sort. It is modelled as an
 insertion sort parameterised by the "goes no later than" relation `le`
 derived from the key (and from `reverse=True`), with the three facts callers
 use: the output is a permutation, it is ordered, and elements whose keys tie
 keep the order they had in the input.
 */
module Sorting {

  ghost predicate TotalPreorder<T(!new)>(le: (T, T) -> bool) {
    && (forall a, b :: le(a, b) || le(b, a))
    && (forall a, b, c :: le(a, b) && le(b, c) ==> le(a, c))
  }

  ghost predicate SortedBy<T>(s: seq<T>, le: (T, T) -> bool) {
    forall i, j :: 0 <= i < j < |s| ==> le(s[i], s[j])
  }

  /**
   Every pair of elements whose keys tie (each goes no later than the other)
   appears in an order `rel` accepts.
   */
  ghost predicate TiesOrdered<T>(s: seq<T>, le: (T, T) -> bool, rel: (T, T) -> bool) {
    forall i, j :: 0 <= i < j < |s| && le(s[i], s[j]) && le(s[j], s[i]) ==> rel(s[i], s[j])
  }

  /** Inserts `x` before the first element it goes no later than. */
  function Insert<T>(x: T, s: seq<T>, le: (T, T) -> bool): (r: seq<T>)
    ensures multiset(r) == multiset(s) + multiset{x}
    ensures |r| == |s| + 1
  {
    if |s| == 0 || le(x, s[0]) then [x] + s
    else
      var rest := Insert(x, s[1..], le);
      assert s == [s[0]] + s[1..];
      [s[0]] + rest
  }

  function Sort<T>(s: seq<T>, le: (T, T) -> bool): (r: seq<T>)
    ensures multiset(r) == multiset(s)
    ensures |r| == |s|
  {
    if |s| == 0 then []
    else
      assert s == [s[0]] + s[1..];
      Insert(s[0], Sort(s[1..], le), le)
  }

  lemma {:induction false} InsertSorted<T(!new)>(x: T, s: seq<T>, le: (T, T) -> bool)
    requires TotalPreorder(le)
    requires SortedBy(s, le)
    ensures SortedBy(Insert(x, s, le), le)
  {
    if |s| > 0 && !le(x, s[0]) {
      var tail := s[1..];
      assert SortedBy(tail, le);
      InsertSorted(x, tail, le);
      var r := Insert(x, s, le);
      var rest := Insert(x, tail, le);
      assert r == [s[0]] + rest;
      forall j | 0 <= j < |rest|
        ensures le(s[0], rest[j])
      {
        assert rest[j] in multiset(rest);
        if rest[j] != x {
          assert rest[j] in multiset(tail);
          var k :| 0 <= k < |tail| && tail[k] == rest[j];
          assert tail[k] == s[k + 1];
        }
      }
    }
  }

  /** The stable sort orders its output by `le`. */
  lemma {:induction false} SortSorted<T(!new)>(s: seq<T>, le: (T, T) -> bool)
    requires TotalPreorder(le)
    ensures SortedBy(Sort(s, le), le)
  {
    if |s| > 0 {
      SortSorted(s[1..], le);
      InsertSorted(s[0], Sort(s[1..], le), le);
    }
  }

  /**
   When `x` passes over the head `s[0]`, anything the rest of the insertion
   yields that ties with `s[0]` came from the tail, which `s` already ordered
   after `s[0]`: `x` itself does not tie with the head it passed over.
   */
  lemma PassedHeadTies<T(!new)>(x: T, s: seq<T>, le: (T, T) -> bool, rel: (T, T) -> bool)
    requires |s| > 0 && !le(x, s[0])
    requires TiesOrdered(s, le, rel)
    ensures forall e :: e in Insert(x, s[1..], le) && le(s[0], e) && le(e, s[0]) ==> rel(s[0], e)
  {
    var tail := s[1..];
    forall e | e in Insert(x, tail, le) && le(s[0], e) && le(e, s[0])
      ensures rel(s[0], e)
    {
      assert e in multiset(Insert(x, tail, le));
      assert e != x;
      assert e in multiset(tail);
      var k :| 0 <= k < |tail| && tail[k] == e;
      assert s[k + 1] == e;
    }
  }

  lemma {:induction false} InsertKeepsTies<T(!new)>(x: T, s: seq<T>, le: (T, T) -> bool, rel: (T, T) -> bool)
    requires TotalPreorder(le)
    requires TiesOrdered(s, le, rel)
    requires forall e :: e in s && le(x, e) && le(e, x) ==> rel(x, e)
    ensures TiesOrdered(Insert(x, s, le), le, rel)
  {
    if |s| > 0 && !le(x, s[0]) {
      var tail := s[1..];
      assert TiesOrdered(tail, le, rel) by {
        forall i, j | 0 <= i < j < |tail| && le(tail[i], tail[j]) && le(tail[j], tail[i])
          ensures rel(tail[i], tail[j])
        {
          assert tail[i] == s[i + 1] && tail[j] == s[j + 1];
        }
      }
      InsertKeepsTies(x, tail, le, rel);
      PassedHeadTies(x, s, le, rel);
      var rest := Insert(x, tail, le);
      var r := Insert(x, s, le);
      assert r == [s[0]] + rest;
      forall i, j | 0 <= i < j < |r| && le(r[i], r[j]) && le(r[j], r[i])
        ensures rel(r[i], r[j])
      {
        assert r[j] == rest[j - 1];
        if i > 0 {
          assert r[i] == rest[i - 1];
        } else {
          assert rest[j - 1] in rest;
        }
      }
    }
  }

  /**
   Stability: ties that were in an order `rel` accepts in the input remain so
   in the output.
   */
  lemma {:induction false} SortKeepsTies<T(!new)>(s: seq<T>, le: (T, T) -> bool, rel: (T, T) -> bool)
    requires TotalPreorder(le)
    requires TiesOrdered(s, le, rel)
    ensures TiesOrdered(Sort(s, le), le, rel)
  {
    if |s| > 0 {
      var tail := s[1..];
      assert TiesOrdered(tail, le, rel) by {
        forall i, j | 0 <= i < j < |tail| && le(tail[i], tail[j]) && le(tail[j], tail[i])
          ensures rel(tail[i], tail[j])
        {
          assert tail[i] == s[i + 1] && tail[j] == s[j + 1];
        }
      }
      SortKeepsTies(tail, le, rel);
      var sorted := Sort(tail, le);
      forall e | e in sorted && le(s[0], e) && le(e, s[0])
        ensures rel(s[0], e)
      {
        assert e in multiset(sorted);
        assert e in multiset(tail);
        var k :| 0 <= k < |tail| && tail[k] == e;
        assert s[k + 1] == e;
      }
      InsertKeepsTies(s[0], sorted, le, rel);
    }
  }

  /** Python's `s[:n]`: the first `min(n, |s|)` elements. */
  function Take<T>(s: seq<T>, n: nat): (r: seq<T>)
    ensures |r| == if |s| <= n then |s| else n
    ensures r == s[..|r|]
    ensures |s| <= n ==> r == s
  {
    if |s| <= n then s else s[..n]
  }

  lemma TakeSorted<T>(s: seq<T>, n: nat, le: (T, T) -> bool)
    requires SortedBy(s, le)
    ensures SortedBy(Take(s, n), le)
  {
  }
}

=== FILE: text.dfy ===
/**
 Strings as the backend produces and compares them: decimal rendering of
 integers (`str(n)`, `f"{n:02d}"`), reading such a rendering back, Python's
 lexicographic string order, and splitting on a separator character.
 */
module Text {

  predicate IsDigit(c: char) {
    '0' <= c <= '9'
  }

  predicate IsNumeral(s: string) {
    |s| > 0 && forall i :: 0 <= i < |s| ==> IsDigit(s[i])
  }

  function DigitChar(d: int): (c: char)
    requires 0 <= d < 10
    ensures IsDigit(c)
  {
    ('0' as int + d) as char
  }

  function DigitValue(c: char): (d: int)
    requires IsDigit(c)
    ensures 0 <= d < 10
    ensures DigitChar(d) == c
  {
    c as int - '0' as int
  }

  /** Python `str(n)` for a non-negative integer: its decimal digits, no leading zeros. */
  function NatToString(n: nat): (s: string)
    ensures IsNumeral(s)
    ensures (n < 10) == (|s| == 1)
    decreases n
  {
    if n < 10 then [DigitChar(n)] else NatToString(n / 10) + [DigitChar(n % 10)]
  }

  /** Python `f"{n:02d}"` for `0 <= n < 100`: exactly two digits. */
  function Pad2(n: nat): (s: string)
    requires n < 100
    ensures IsNumeral(s) && |s| == 2
  {
    [DigitChar(n / 10), DigitChar(n % 10)]
  }

  /** The value of a decimal numeral, as `int(s)` reads it. */
  function NumeralValue(s: string): (v: nat)
    requires forall i :: 0 <= i < |s| ==> IsDigit(s[i])
  {
    if |s| == 0 then 0 else NumeralValue(s[..|s| - 1]) * 10 + DigitValue(s[|s| - 1])
  }

  /** Reading back a rendered integer yields the integer. */
  lemma {:induction false} NatToStringRoundTrip(n: nat)
    ensures NumeralValue(NatToString(n)) == n
    decreases n
  {
    var s := NatToString(n);
    if n >= 10 {
      NatToStringRoundTrip(n / 10);
      assert s[..|s| - 1] == NatToString(n / 10);
      assert DigitValue(s[|s| - 1]) == n % 10;
    } else {
      assert s[..0] == [];
    }
  }

  lemma Pad2RoundTrip(n: nat)
    requires n < 100
    ensures NumeralValue(Pad2(n)) == n
  {
    var s := Pad2(n);
    var hi := [DigitChar(n / 10)];
    assert s[..|s| - 1] == hi;
    assert hi[..|hi| - 1] == [];
    assert NumeralValue(hi) == n / 10;
    assert DigitValue(s[|s| - 1]) == n % 10;
  }

  /** Python's `a <= b` on strings: lexicographic by code point, a prefix first. */
  predicate StrLe(a: string, b: string)
    decreases |a|
  {
    if |a| == 0 then true
    else if |b| == 0 then false
    else if a[0] != b[0] then a[0] < b[0]
    else StrLe(a[1..], b[1..])
  }

  lemma {:induction false} StrLeReflexive(a: string)
    ensures StrLe(a, a)
    decreases |a|
  {
    if |a| > 0 {
      StrLeReflexive(a[1..]);
    }
  }

  lemma {:induction false} StrLeTotal(a: string, b: string)
    ensures StrLe(a, b) || StrLe(b, a)
    decreases |a|
  {
    if |a| > 0 && |b| > 0 && a[0] == b[0] {
      StrLeTotal(a[1..], b[1..]);
    }
  }

  lemma {:induction false} StrLeAntisymmetric(a: string, b: string)
    requires StrLe(a, b) && StrLe(b, a)
    ensures a == b
    decreases |a|
  {
    if |a| > 0 && |b| > 0 {
      StrLeAntisymmetric(a[1..], b[1..]);
      assert a == [a[0]] + a[1..];
      assert b == [b[0]] + b[1..];
    }
  }

  lemma {:induction false} StrLeTransitive(a: string, b: string, c: string)
    requires StrLe(a, b) && StrLe(b, c)
    ensures StrLe(a, c)
    decreases |a|
  {
    if |a| > 0 && |b| > 0 && |c| > 0 && a[0] == b[0] && b[0] == c[0] {
      StrLeTransitive(a[1..], b[1..], c[1..]);
    }
  }

  /** `s.split(":")`: the fields between separators; never empty. */
  function Split(s: string, sep: char): (r: seq<string>)
    ensures |r| >= 1
  {
    if |s| == 0 then [""]
    else
      var rest := Split(s[1..], sep);
      if s[0] == sep then [""] + rest
      else [[s[0]] + rest[0]] + rest[1..]
  }

  lemma {:induction false} SplitNoSeparator(a: string, sep: char)
    requires sep !in a
    ensures Split(a, sep) == [a]
  {
    if |a| > 0 {
      SplitNoSeparator(a[1..], sep);
      assert a == [a[0]] + a[1..];
    }
  }

  lemma {:induction false} SplitAtSeparator(a: string, sep: char, b: string)
    requires sep !in a
    ensures Split(a + [sep] + b, sep) == [a] + Split(b, sep)
  {
    if |a| == 0 {
      assert a + [sep] + b == [sep] + b;
      assert ([sep] + b)[1..] == b;
    } else {
      var s := a + [sep] + b;
      assert s[1..] == a[1..] + [sep] + b;
      SplitAtSeparator(a[1..], sep, b);
      assert a == [a[0]] + a[1..];
    }
  }

  lemma NumeralHasNoColon(s: string)
    requires IsNumeral(s)
    ensures ':' !in s
  {
  }
}

=== FILE: training_processor.dfy ===
/**
 The training-feature aggregator (`process_training_data`) and the race
 detector (`detect_race_results`). The aggregator folds the qualifying runs
 into per-run lists and a weekly-mileage dictionary and summarises them; the
 detector filters activities by distance and orders them with two stable sorts.
 */
module TrainingProcessor {
  import opened Common
  import opened Text
  import opened Activities
  import opened Buckets
  import Sorting

  // ---------------------------------------------------------------------------
  // process_training_data
  // ---------------------------------------------------------------------------

  /** The snapshot dictionary; the progression is kept as the list `json.dumps` receives. */
  datatype Snapshot = Snapshot(
    weeksOfData: int,
    avgWeeklyMiles: real,
    peakWeeklyMiles: real,
    totalMiles: real,
    totalRuns: nat,
    avgRunDistanceMi: real,
    longestRunMi: real,
    avgPacePerMileSec: int,
    fastestPacePerMileSec: int,
    totalElevationGainFt: real,
    avgElevationPerRunFt: real,
    runsWithHeartrate: nat,
    avgHeartrate: Option<real>,
    weeklyProgression: seq<WeekEntry>)

  /** `_empty_snapshot(weeks)`: every statistic zero, no heart rate, an empty progression. */
  function EmptySnapshot(weeks: int): (s: Snapshot)
    ensures s.weeksOfData == weeks && s.totalRuns == 0 && s.runsWithHeartrate == 0
    ensures s.avgHeartrate == None && s.weeklyProgression == []
  {
    Snapshot(weeks, 0.0, 0.0, 0.0, 0, 0.0, 0.0, 0, 0, 0.0, 0.0, 0, None, [])
  }

  /** A run enters the statistics only with a positive distance and a positive moving time. */
  predicate Contributes(a: Activity) {
    IsRun(a) && DistanceKm(a) > 0.0 && a.movingTime > 0
  }

  function Contributing(activities: seq<Activity>): (rs: seq<Activity>)
    ensures |rs| <= |activities|
    ensures forall a :: a in rs <==> a in activities && Contributes(a)
  {
    Filter(activities, Contributes)
  }

  function DistanceMiles(a: Activity): real {
    DistanceKm(a) / KmPerMile
  }

  /** `(time_sec / dist_km) * 1.60934`, seconds per mile. */
  function PaceSecPerMile(a: Activity): real
    requires DistanceKm(a) != 0.0
  {
    (a.movingTime as real / DistanceKm(a)) * KmPerMile
  }

  /** The pace of a contributing run; 0 stands in for runs that never reach the pace line. */
  function PaceOrZero(a: Activity): real {
    if DistanceKm(a) > 0.0 then PaceSecPerMile(a) else 0.0
  }

  function ElevationFt(a: Activity): real {
    a.elevationGain * FeetPerMetre
  }

  function Heartrate(a: Activity): real {
    a.averageHeartrate.GetOr(0.0)
  }

  /** `process_training_data(activities, weeks)`. */
  function ProcessTrainingData(activities: seq<Activity>, weeks: int, cal: Calendar): (s: Snapshot)
    ensures s.weeksOfData == weeks
    ensures s.totalRuns == |Contributing(activities)|
    ensures s.totalRuns == 0 <==> s == EmptySnapshot(weeks)
    ensures s.runsWithHeartrate == |Filter(Contributing(activities), HasHeartrate)|
    ensures s.runsWithHeartrate <= s.totalRuns
    ensures s.avgHeartrate.Some? <==> s.runsWithHeartrate > 0
  {
    var runs := Contributing(activities);
    if |runs| == 0 then EmptySnapshot(weeks)
    else
      var distances := Map(runs, DistanceMiles);
      var paces := Map(runs, PaceOrZero);
      var elevations := Map(runs, ElevationFt);
      var heartrates := Map(Filter(runs, HasHeartrate), Heartrate);
      var weeklyMiles := Totals(Weekly(runs, cal, DistanceMiles));
      var avgWeekly := if |weeklyMiles| > 0 then Mean(weeklyMiles) else 0.0;
      var peakWeekly := if |weeklyMiles| > 0 then Max(weeklyMiles) else 0.0;
      Snapshot(
        weeks,
        RoundTo(avgWeekly, 10.0),
        RoundTo(peakWeekly, 10.0),
        RoundTo(Sum(distances), 10.0),
        |distances|,
        RoundTo(Mean(distances), 10.0),
        RoundTo(Max(distances), 10.0),
        Round(Mean(paces)),
        Round(Min(paces)),
        RoundTo(Sum(elevations), 1.0),
        RoundTo(Mean(elevations), 1.0),
        |heartrates|,
        if |heartrates| > 0 then Some(RoundTo(Mean(heartrates), 10.0)) else None,
        Progression(Weekly(runs, cal, DistanceMiles), 1.0))
  }

  /**
   The ordering facts of the summary hold before rounding (peak week at least
   the average week, longest run at least the average run, fastest pace at most
   the average pace) and rounding preserves them.
   */
  lemma SnapshotOrderings(activities: seq<Activity>, weeks: int, cal: Calendar)
    ensures var s := ProcessTrainingData(activities, weeks, cal);
            && s.avgWeeklyMiles <= s.peakWeeklyMiles
            && s.avgRunDistanceMi <= s.longestRunMi
            && s.fastestPacePerMileSec <= s.avgPacePerMileSec
  {
    var runs := Contributing(activities);
    if |runs| > 0 {
      var distances := Map(runs, DistanceMiles);
      var paces := Map(runs, PaceOrZero);
      var weeklyMiles := Totals(Weekly(runs, cal, DistanceMiles));
      if |weeklyMiles| > 0 {
        MeanAtMostMax(weeklyMiles);
        RoundToMonotone(Mean(weeklyMiles), Max(weeklyMiles), 10.0);
      }
      MeanAtMostMax(distances);
      RoundToMonotone(Mean(distances), Max(distances), 10.0);
      MinAtMostMean(paces);
      RoundMonotone(Min(paces), Mean(paces));
    }
  }

  /** The progression lists the weekly buckets in ascending week order, one entry per week. */
  lemma ProgressionSorted(activities: seq<Activity>, weeks: int, cal: Calendar)
    ensures var p := ProcessTrainingData(activities, weeks, cal).weeklyProgression;
            && |p| == |Weekly(Contributing(activities), cal, DistanceMiles)|
            && forall i, j :: 0 <= i < j < |p| ==> StrLe(p[i].week, p[j].week)
  {
  }

  lemma ContributingMilesNonNegative(runs: seq<Activity>)
    requires forall a :: a in runs ==> Contributes(a)
    ensures forall a :: a in runs ==> DistanceMiles(a) >= 0.0
  {
  }

  /**
   A run whose date does not parse still counts in the total miles but lands in
   no week, so the weeks add up to at most the total; with every date parsing
   they add up to exactly the total.
   */
  lemma WeeklyMilesAtMostTotal(activities: seq<Activity>, cal: Calendar)
    ensures var runs := Contributing(activities);
            && Sum(Totals(Weekly(runs, cal, DistanceMiles))) <= Sum(Map(runs, DistanceMiles))
            && ((forall a :: a in runs ==> DateParses(cal, a))
                  ==> Sum(Totals(Weekly(runs, cal, DistanceMiles))) == Sum(Map(runs, DistanceMiles)))
  {
    var runs := Contributing(activities);
    var parses := (a: Activity) => DateParses(cal, a);
    WeeklyTotal(runs, cal, DistanceMiles);
    ContributingMilesNonNegative(runs);
    SumOfFilterAtMost(runs, DistanceMiles, parses);
    if forall a :: a in runs ==> DateParses(cal, a) {
      FilterAll(runs, parses);
    }
  }

  // ---------------------------------------------------------------------------
  // detect_race_results
  // ---------------------------------------------------------------------------

  datatype RaceMatch = RaceMatch(
    activityId: int,
    name: string,
    date: string,
    distanceKm: real,
    timeSeconds: int,
    elevationGainFt: real,
    isRace: bool,
    averageHeartrate: Option<real>)

  /** A run with a positive distance reaches the tolerance test, which divides by the goal. */
  predicate ReachesTest(a: Activity) {
    IsRun(a) && DistanceKm(a) > 0.0
  }

  predicate Matches(a: Activity, goalKm: real, tolerance: real)
    requires goalKm != 0.0
  {
    ReachesTest(a) && WithinTolerance(DistanceKm(a), goalKm, tolerance)
  }

  function MatchOf(a: Activity): RaceMatch {
    RaceMatch(a.id, a.name, DatePrefix(a), RoundTo(DistanceKm(a), 100.0), a.movingTime,
              RoundTo(ElevationFt(a), 1.0), IsRace(a), a.averageHeartrate)
  }

  /** The first sort, `key=(not is_race, date)`: races first, then ascending date. */
  predicate RaceThenDate(a: RaceMatch, b: RaceMatch) {
    (a.isRace && !b.isRace) || (a.isRace == b.isRace && StrLe(a.date, b.date))
  }

  /** The second sort, `key=date, reverse=True`: newest first. */
  predicate NewestFirst(a: RaceMatch, b: RaceMatch) {
    StrLe(b.date, a.date)
  }

  /** Among entries of one date, a race never follows a non-race. */
  predicate RaceNotAfterNonRace(a: RaceMatch, b: RaceMatch) {
    b.isRace ==> a.isRace
  }

  lemma RaceThenDateIsTotalPreorder()
    ensures Sorting.TotalPreorder(RaceThenDate)
  {
    forall a: RaceMatch, b: RaceMatch
      ensures RaceThenDate(a, b) || RaceThenDate(b, a)
    {
      StrLeTotal(a.date, b.date);
    }
    forall a: RaceMatch, b: RaceMatch, c: RaceMatch | RaceThenDate(a, b) && RaceThenDate(b, c)
      ensures RaceThenDate(a, c)
    {
      if a.isRace == b.isRace == c.isRace {
        StrLeTransitive(a.date, b.date, c.date);
      }
    }
  }

  lemma NewestFirstIsTotalPreorder()
    ensures Sorting.TotalPreorder(NewestFirst)
  {
    forall a: RaceMatch, b: RaceMatch
      ensures NewestFirst(a, b) || NewestFirst(b, a)
    {
      StrLeTotal(a.date, b.date);
    }
    forall a: RaceMatch, b: RaceMatch, c: RaceMatch | NewestFirst(a, b) && NewestFirst(b, c)
      ensures NewestFirst(a, c)
    {
      StrLeTransitive(c.date, b.date, a.date);
    }
  }

  /** The matches in input order, before sorting. */
  function Candidates(activities: seq<Activity>, goalKm: real, tolerance: real): (ms: seq<RaceMatch>)
    requires goalKm != 0.0
    ensures |ms| <= |activities|
    ensures forall m :: m in ms <==> exists a :: a in activities && Matches(a, goalKm, tolerance) && m == MatchOf(a)
  {
    if |activities| == 0 then []
    else
      var rest := Candidates(activities[1..], goalKm, tolerance);
      assert forall a :: a in activities <==> a == activities[0] || a in activities[1..];
      if Matches(activities[0], goalKm, tolerance) then [MatchOf(activities[0])] + rest else rest
  }

  /**
   `detect_race_results(activities, goal_distance_km, tolerance)`. The tolerance
   test divides by the goal distance, so a zero goal raises ZeroDivisionError as
   soon as one run with a positive distance reaches it.
   */
  function DetectRaceResults(activities: seq<Activity>, goalKm: real, tolerance: real)
    : (r: Result<seq<RaceMatch>, PyError>)
    ensures r.Failure? <==> goalKm == 0.0 && exists a :: a in activities && ReachesTest(a)
    ensures r.Failure? ==> r.error == ZeroDivisionError
  {
    if goalKm == 0.0 then
      if exists a :: a in activities && ReachesTest(a) then Failure(ZeroDivisionError) else Success([])
    else
      var byRace := Sorting.Sort(Candidates(activities, goalKm, tolerance), RaceThenDate);
      Success(Sorting.Sort(byRace, NewestFirst))
  }

  /**
   Every returned entry comes from a run of positive distance within the
   tolerance of the goal, every such run is returned, and the result is no
   longer than the input.
   */
  lemma DetectedAreExactlyMatches(activities: seq<Activity>, goalKm: real, tolerance: real)
    requires goalKm != 0.0
    ensures var r := DetectRaceResults(activities, goalKm, tolerance);
            && r.Success?
            && |r.value| <= |activities|
            && forall m :: m in r.value <==>
                 exists a :: a in activities && Matches(a, goalKm, tolerance) && m == MatchOf(a)
  {
    var cands := Candidates(activities, goalKm, tolerance);
    var byRace := Sorting.Sort(cands, RaceThenDate);
    var out := Sorting.Sort(byRace, NewestFirst);
    SameMembers(cands, out);
  }

  /** The two sorts only reorder: each candidate is returned exactly as often as it was found. */
  lemma DetectedPermutesCandidates(activities: seq<Activity>, goalKm: real, tolerance: real)
    requires goalKm != 0.0
    ensures DetectRaceResults(activities, goalKm, tolerance).Success?
    ensures multiset(DetectRaceResults(activities, goalKm, tolerance).value)
            == multiset(Candidates(activities, goalKm, tolerance))
  {
  }

  /**
   The result is ordered newest first, and among entries of one date the races
   come before the other runs: the first sort puts races first and the second,
   stable sort keeps that order between entries whose dates tie.
   */
  lemma DetectedOrder(activities: seq<Activity>, goalKm: real, tolerance: real)
    requires goalKm != 0.0
    ensures var r := DetectRaceResults(activities, goalKm, tolerance).value;
            && (forall i, j :: 0 <= i < j < |r| ==> StrLe(r[j].date, r[i].date))
            && (forall i, j :: 0 <= i < j < |r| && r[i].date == r[j].date && r[j].isRace ==> r[i].isRace)
  {
    var cands := Candidates(activities, goalKm, tolerance);
    RaceThenDateIsTotalPreorder();
    NewestFirstIsTotalPreorder();
    var byRace := Sorting.Sort(cands, RaceThenDate);
    Sorting.SortSorted(cands, RaceThenDate);
    assert Sorting.TiesOrdered(byRace, NewestFirst, RaceNotAfterNonRace) by {
      forall i, j | 0 <= i < j < |byRace| && NewestFirst(byRace[i], byRace[j]) && NewestFirst(byRace[j], byRace[i])
        ensures RaceNotAfterNonRace(byRace[i], byRace[j])
      {
        assert RaceThenDate(byRace[i], byRace[j]);
      }
    }
    Sorting.SortSorted(byRace, NewestFirst);
    Sorting.SortKeepsTies(byRace, NewestFirst, RaceNotAfterNonRace);
    var r := Sorting.Sort(byRace, NewestFirst);
    forall i, j | 0 <= i < j < |r| && r[i].date == r[j].date && r[j].isRace
      ensures r[i].isRace
    {
      StrLeReflexive(r[i].date);
      assert NewestFirst(r[i], r[j]) && NewestFirst(r[j], r[i]);
    }
  }
}

=== FILE: webhook_handler.dfy ===
/**
 The decision logic of `process_activity_event`: a chain of early exits
 (consent, token, fetch, run type), the log call, and a first-match search over
 the athlete's pending predictions by distance tolerance and race-date window.

 Everything the handler asks of the outside world (consent, token refresh,
 activity fetch, the log id, the pending predictions, the id of a stored race
 result) arrives in an `Oracles` value; the writes it performs are returned as
 a trace of `Call`s, in order.
 */
module WebhookHandler {
  import opened Common
  import opened Activities

  /** One row of `get_pending_predictions`; dates are day numbers. */
  datatype PendingPrediction = PendingPrediction(
    id: int,
    snapshotId: int,
    refDistanceKm: real,
    refTimeSeconds: int,
    refDate: Option<string>,
    goalDistanceKm: real,
    distanceTolerance: real,
    goalRaceDate: Option<int>,
    matchWindowDays: Option<int>,
    predictedTimeSeconds: int,
    goalRaceName: Option<string>)

  /** The keyword arguments of the `store_race_result` call. */
  datatype RaceResultRequest = RaceResultRequest(
    athleteId: int,
    snapshotId: int,
    refDistanceKm: real,
    refTimeSeconds: int,
    refDate: Option<string>,
    goalDistanceKm: real,
    goalTimeSeconds: int,
    goalDate: string,
    goalElevationGainFt: real,
    predictedTimeSeconds: int,
    source: string)

  /** The writes the handler performs. */
  datatype Call =
    | LogActivity(athleteId: int, activity: Activity)
    | StoreRaceResult(request: RaceResultRequest)
    | MatchPrediction(predictionId: int, activityId: int)

  /** What the awaited helpers return for this event. */
  datatype Oracles = Oracles(
    consent: bool,
    accessToken: Option<string>,
    activity: Option<Activity>,
    logId: Option<int>,
    pending: seq<PendingPrediction>,
    raceResultId: Option<int>)

  datatype Action = Skipped | Logged | Matched

  /** The extra keys a match adds to the result. */
  datatype MatchInfo = MatchInfo(
    predictionId: int,
    raceResultId: Option<int>,
    goalDistanceKm: real,
    predictedSeconds: int,
    actualSeconds: int,
    errorSeconds: int,
    isRace: bool,
    raceName: string)

  datatype EventResult = EventResult(
    athleteId: int,
    activityId: int,
    action: Action,
    logged: bool,
    reason: string,
    matched: Option<MatchInfo>)

  /** The handler either returns its result or lets an exception escape, after the writes in `calls`. */
  datatype Outcome =
    | Returned(result: EventResult, calls: seq<Call>)
    | Raised(error: PyError, calls: seq<Call>)

  /** A token is usable when it is truthy: present and non-empty. */
  predicate TokenUsable(token: Option<string>) {
    token.Some? && token.value != ""
  }

  /** The tolerance test divides by the goal distance once the activity's distance is positive. */
  predicate RaisesOn(p: PendingPrediction, distKm: real) {
    distKm > 0.0 && p.goalDistanceKm == 0.0
  }

  /** The race-date window `[race_date - 1 day, race_date + match_window_days]`, default 3 days. */
  predicate InWindow(p: PendingPrediction, day: int) {
    match p.goalRaceDate
    case None => true
    case Some(raceDate) => raceDate - 1 <= day <= raceDate + p.matchWindowDays.GetOr(3)
  }

  predicate Qualifies(p: PendingPrediction, distKm: real, day: int) {
    && distKm > 0.0
    && p.goalDistanceKm != 0.0
    && WithinTolerance(distKm, p.goalDistanceKm, p.distanceTolerance)
    && InWindow(p, day)
  }

  datatype Search = NoMatch | Found(index: nat) | DivisionByZero(index: nat)

  /**
   The `for pred in pending` loop: it stops at the first prediction that
   qualifies, or at the first that raises, whichever comes first.
   */
  function FirstMatch(pending: seq<PendingPrediction>, distKm: real, day: int): (r: Search)
    ensures r.NoMatch? <==>
              forall j :: 0 <= j < |pending| ==> !Qualifies(pending[j], distKm, day) && !RaisesOn(pending[j], distKm)
    ensures r.Found? ==> r.index < |pending| && Qualifies(pending[r.index], distKm, day)
    ensures r.DivisionByZero? ==> r.index < |pending| && RaisesOn(pending[r.index], distKm)
    ensures !r.NoMatch? ==>
              forall j :: 0 <= j < r.index ==> !Qualifies(pending[j], distKm, day) && !RaisesOn(pending[j], distKm)
  {
    if |pending| == 0 then NoMatch
    else if RaisesOn(pending[0], distKm) then DivisionByZero(0)
    else if Qualifies(pending[0], distKm, day) then Found(0)
    else
      var rest := FirstMatch(pending[1..], distKm, day);
      assert forall j :: 1 <= j < |pending| ==> pending[j] == pending[1..][j - 1];
      match rest
      case NoMatch => NoMatch
      case Found(i) => Found(i + 1)
      case DivisionByZero(i) => DivisionByZero(i + 1)
  }

  function Request(athleteId: int, act: Activity, p: PendingPrediction): RaceResultRequest {
    RaceResultRequest(athleteId, p.snapshotId, p.refDistanceKm, p.refTimeSeconds, p.refDate,
                      DistanceKm(act), act.movingTime, DatePrefix(act), act.elevationGain * FeetPerMetre,
                      p.predictedTimeSeconds, "webhook")
  }

  /** `process_activity_event(athlete_id, activity_id)`. */
  function ProcessActivityEvent(athleteId: int, activityId: int, o: Oracles, cal: Calendar): (out: Outcome)
  {
    var skipped := EventResult(athleteId, activityId, Skipped, false, "", None);
    if !o.consent then Returned(skipped.(reason := "not opted in"), [])
    else if !TokenUsable(o.accessToken) then Returned(skipped.(reason := "token refresh failed"), [])
    else if o.activity.None? then Returned(skipped.(reason := "activity fetch failed"), [])
    else if !IsRun(o.activity.value) then Returned(skipped.(reason := "not a run"), [])
    else
      var act := o.activity.value;
      var logCalls := [LogActivity(athleteId, act)];
      var logged := skipped.(logged := o.logId.Some?,
                             action := if o.logId.Some? && o.logId.value != 0 then Logged else Skipped);
      var distKm := DistanceKm(act);
      var day := cal.parseDate(DatePrefix(act));
      if day.None? || |o.pending| == 0 then Returned(logged, logCalls)
      else
        match FirstMatch(o.pending, distKm, day.value)
        case NoMatch => Returned(logged, logCalls)
        case DivisionByZero(_) => Raised(ZeroDivisionError, logCalls)
        case Found(i) =>
          var p := o.pending[i];
          var info := MatchInfo(p.id, o.raceResultId, p.goalDistanceKm, p.predictedTimeSeconds, act.movingTime,
                                p.predictedTimeSeconds - act.movingTime, IsRace(act), p.goalRaceName.GetOr(""));
          Returned(logged.(action := Matched, matched := Some(info)),
                   logCalls + [StoreRaceResult(Request(athleteId, act, p)), MatchPrediction(p.id, activityId)])
  }

  /** The handler got past the consent, token, fetch and run-type checks. */
  predicate PassesGates(o: Oracles) {
    o.consent && TokenUsable(o.accessToken) && o.activity.Some? && IsRun(o.activity.value)
  }

  /**
   Each gate that fails returns "skipped" with its own reason and performs no
   write; a reason is given exactly when a gate failed.
   */
  lemma EarlyExits(athleteId: int, activityId: int, o: Oracles, cal: Calendar)
    ensures var out := ProcessActivityEvent(athleteId, activityId, o, cal);
            && (!PassesGates(o) <==> out.Returned? && out.result.reason != "")
            && (!PassesGates(o) ==> out.calls == [] && out.result.action == Skipped
                                    && !out.result.logged && out.result.matched == None)
            && (!o.consent ==> out.result.reason == "not opted in")
            && (o.consent && !TokenUsable(o.accessToken) ==> out.result.reason == "token refresh failed")
            && (o.consent && TokenUsable(o.accessToken) ==>
                  (o.activity.None? ==> out.result.reason == "activity fetch failed")
                  && (o.activity.Some? && !IsRun(o.activity.value) ==> out.result.reason == "not a run"))
  {
  }

  /**
   Past the gates the run is logged first of all; `logged` reports whether the
   log call returned an id, and unless a match follows, the action is "logged"
   exactly when that id is truthy.
   */
  lemma LoggingFirst(athleteId: int, activityId: int, o: Oracles, cal: Calendar)
    requires PassesGates(o)
    ensures var out := ProcessActivityEvent(athleteId, activityId, o, cal);
            && |out.calls| >= 1 && out.calls[0] == LogActivity(athleteId, o.activity.value)
            && (out.Returned? ==> out.result.logged == o.logId.Some?)
            && (out.Returned? && out.result.matched.None? ==>
                  (out.result.action == Logged <==> o.logId.Some? && o.logId.value != 0))
  {
  }

  /** An unparseable date or an empty pending list ends the event right after the log call. */
  lemma NoSearchWithoutDateOrPending(athleteId: int, activityId: int, o: Oracles, cal: Calendar)
    requires PassesGates(o)
    requires cal.parseDate(DatePrefix(o.activity.value)).None? || |o.pending| == 0
    ensures var out := ProcessActivityEvent(athleteId, activityId, o, cal);
            && out.Returned?
            && out.calls == [LogActivity(athleteId, o.activity.value)]
            && out.result.matched.None?
  {
  }

  /**
   A match is the first pending prediction, in list order, whose goal distance
   is within its tolerance of the run's positive distance and whose race-date
   window (if any) holds the run's date; none before it qualifies. The event
   then records exactly one race result, carrying the run's own distance, and
   marks exactly that prediction matched.
   */
  lemma MatchIsFirstQualifying(athleteId: int, activityId: int, o: Oracles, cal: Calendar)
    requires PassesGates(o)
    ensures var out := ProcessActivityEvent(athleteId, activityId, o, cal);
            var act := o.activity.value;
            var day := cal.parseDate(DatePrefix(act));
            out.Returned? && out.result.matched.Some? ==>
              exists i :: 0 <= i < |o.pending|
                && day.Some?
                && Qualifies(o.pending[i], DistanceKm(act), day.value)
                && (forall j :: 0 <= j < i ==> !Qualifies(o.pending[j], DistanceKm(act), day.value))
                && out.result.action == Matched
                && out.result.matched.value.predictionId == o.pending[i].id
                && out.result.matched.value.errorSeconds == o.pending[i].predictedTimeSeconds - act.movingTime
                && out.calls == [LogActivity(athleteId, act),
                                 StoreRaceResult(Request(athleteId, act, o.pending[i])),
                                 MatchPrediction(o.pending[i].id, activityId)]
                && out.calls[1].request.goalDistanceKm == DistanceKm(act)
  {
    var out := ProcessActivityEvent(athleteId, activityId, o, cal);
    var act := o.activity.value;
    var day := cal.parseDate(DatePrefix(act));
    if out.Returned? && out.result.matched.Some? {
      var r := FirstMatch(o.pending, DistanceKm(act), day.value);
      assert r.Found?;
      assert Qualifies(o.pending[r.index], DistanceKm(act), day.value);
    }
  }

  /**
   A run of non-positive distance, or one outside every prediction's tolerance
   or window, is never matched; when some prediction qualifies and none before
   it would divide by zero, the event does match.
   */
  lemma MatchIffSomeQualifies(athleteId: int, activityId: int, o: Oracles, cal: Calendar)
    requires PassesGates(o)
    requires cal.parseDate(DatePrefix(o.activity.value)).Some?
    ensures var out := ProcessActivityEvent(athleteId, activityId, o, cal);
            var distKm := DistanceKm(o.activity.value);
            var day := cal.parseDate(DatePrefix(o.activity.value)).value;
            && ((forall j :: 0 <= j < |o.pending| ==> !Qualifies(o.pending[j], distKm, day))
                  ==> !(out.Returned? && out.result.matched.Some?))
            && (distKm <= 0.0 ==> out.Returned? && out.result.matched.None?)
            && ((exists i :: 0 <= i < |o.pending| && Qualifies(o.pending[i], distKm, day)
                   && forall j :: 0 <= j < i ==> !RaisesOn(o.pending[j], distKm))
                  ==> out.Returned? && out.result.action == Matched)
  {
    var act := o.activity.value;
    var distKm := DistanceKm(act);
    var day := cal.parseDate(DatePrefix(act)).value;
    var r := FirstMatch(o.pending, distKm, day);
    if exists i :: 0 <= i < |o.pending| && Qualifies(o.pending[i], distKm, day)
                   && forall j :: 0 <= j < i ==> !RaisesOn(o.pending[j], distKm) {
      var i :| 0 <= i < |o.pending| && Qualifies(o.pending[i], distKm, day)
               && forall j :: 0 <= j < i ==> !RaisesOn(o.pending[j], distKm);
      assert !r.NoMatch?;
      assert !r.DivisionByZero?;
    }
  }

  /**
   Whatever happens, the event writes nothing, only the log entry, or the log
   entry followed by one race result and one prediction match; the last shape
   is exactly the matched outcome.
   */
  lemma AtMostOneMatch(athleteId: int, activityId: int, o: Oracles, cal: Calendar)
    ensures var out := ProcessActivityEvent(athleteId, activityId, o, cal);
            && (out.calls == [] || |out.calls| == 1 || |out.calls| == 3)
            && (|out.calls| >= 1 ==> PassesGates(o) && out.calls[0] == LogActivity(athleteId, o.activity.value))
            && (|out.calls| == 3 <==> out.Returned? && out.result.action == Matched)
            && (|out.calls| == 3 ==> out.calls[1].StoreRaceResult? && out.calls[2].MatchPrediction?
                                     && out.result.matched.Some?
                                     && out.calls[2].predictionId == out.result.matched.value.predictionId)
  {
  }

  /**
   A zero goal distance on a pending prediction the loop reaches, that is one
   with no qualifying prediction before it, escapes as ZeroDivisionError once
   the run's distance is positive, after the log call.
   */
  lemma ZeroGoalRaises(athleteId: int, activityId: int, o: Oracles, cal: Calendar, i: int)
    requires PassesGates(o)
    requires cal.parseDate(DatePrefix(o.activity.value)).Some?
    requires 0 <= i < |o.pending| && o.pending[i].goalDistanceKm == 0.0 && DistanceKm(o.activity.value) > 0.0
    requires forall j :: 0 <= j < i ==>
               !Qualifies(o.pending[j], DistanceKm(o.activity.value), cal.parseDate(DatePrefix(o.activity.value)).value)
    ensures ProcessActivityEvent(athleteId, activityId, o, cal)
            == Raised(ZeroDivisionError, [LogActivity(athleteId, o.activity.value)])
  {
    var act := o.activity.value;
    var r := FirstMatch(o.pending, DistanceKm(act), cal.parseDate(DatePrefix(act)).value);
    assert RaisesOn(o.pending[i], DistanceKm(act));
    assert !r.NoMatch?;
    if r.Found? {
      assert false;
    }
  }
}
